=== FILE: README.md ===
# Merkle tree over a hash linked list — a Dafny model

This project models a Merkle tree (a binary hash tree) and the list it is
built from. The model is written in Dafny 4.11.

- **The list** (`HashLinkedList`) is a singly linked list of
  `(data, digest)` entries. It supports insertion at the head and at the
  tail, and removal of the first entry whose data is equal to an argument.
  It can return a snapshot of the digests, head to tail. A modification
  counter makes its iterator fail-fast.
- **The tree** (`MerkleTree`) takes the list's digests as its leaves. It
  pads the leaf row with sentinel leaves carrying the empty digest `""`,
  up to the next power of two. It then pairs nodes row by row until one
  root is left.
  - The parent of two `""` children is `""`.
  - Any other parent carries `H(left ++ right)`.
- **Queries on the tree:**
  - leaf search by digest, left to right;
  - membership tests for a digest and for a branch;
  - the leftmost path from a node down to a digest;
  - Merkle proofs: bottom-up lists of sibling digests, each with a flag
    that says whether the sibling is the left child;
  - a pairwise diff of two trees (`findInvalidDataIndices`) and its
    boolean wrapper `validateTree`.

The digest primitives are parameters of the model, not definitions:
`dataHash: T -> string` and `H: string -> string`. They stand for
`HashUtil.dataToHash` and for `HashUtil.computeMD5` applied to the bytes of
a string. Some results need a fact about `H`. They assume only
`NeverPadding(H)`: `H` never returns the sentinel `""`, which holds because
an MD5 hex digest always has 32 characters. Results that need the absence of
digest collisions state it as an explicit hypothesis: `Separating` for
trees of the same height, `LeftSpineDistinct` for trees of different
heights.

Nodes are compared by digest, as the branch-validation documentation
describes (`MerkleNode.equals` is not part of this model).

Files:

| file | content |
|---|---|
| `wrappers.dfy` | `Option`, `Result`, and the two exception kinds |
| `sequences.dfy` | `FirstIndex` (first occurrence, or -1) and facts about it |
| `hash_linked_list.dfy` | the list, its invariant, add/remove/snapshot, the fail-fast iterator |
| `merkle_node.dfy` | nodes, the parent-digest rule, perfect trees, leaf order, pre-order |
| `merkle_build.dfy` | the constructor (its loops kept as loops), `getUpperTwoPower`, `getHeight` |
| `merkle_search.dfy` | `searchIntoNode`, `getIndexOfData` (both), branch and data validation |
| `merkle_proof.dfy` | `getPathToDescendant`, the three `getMerkleProof`, proof folding |
| `merkle_diff.dfy` | `findInvalidDataIndices` (as written and corrected), `validateTree` |

### Notes on the code (the model follows the code)

- **Proof flag.** `getMerkleProof` adds a sibling with flag `true` when
  the sibling is the LEFT child of the parent, and with `false` when it is
  the right child (MerkleTree.java:366-370). `ProofEntry.siblingIsLeft`
  keeps that meaning.
- **`validateBranch`.** Its documentation calls a branch valid when its
  root digest equals the digest of "any intermediate node" of the tree,
  and adds that the branch itself may be a leaf (MerkleTree.java:217-219).
  The code (`checkBranchIntoThree`, MerkleTree.java:166-173) compares with
  `equals` against every node, the root and the leaves of this tree
  included. `MerkleSearch.ValidateBranch` follows the code: it compares
  digests and matches any node, leaves included.
- **Trees built from lists of different sizes.** The documentation of
  `findInvalidDataIndices` promises an exception when the other tree has a
  different structure, "possibly because of a different number of
  elements" (MerkleTree.java:260-262). The code throws only when a leaf
  meets an internal node, which happens when the heights differ. For five
  versus seven items (both height 3) it returns `{5}` and throws nothing
  (`MerkleDiff.PaddingMisreported`). When the heights differ, the exception
  is certain as long as the paired internal nodes down the two left spines
  have different digests (`MerkleDiff.DifferentHeightsMismatch`). In a built
  tree the leftmost leaf is a real digest, so this only excludes a
  collision of `H`.

## Model

| member | source | states |
|---|---|---|
| HashLinkedLists.Empty | src/it/unicam/cs/asdl2425/mp1/HashLinkedList.java:49-54 | a new list is empty, satisfies the head/tail/size invariant and has modification count 0 |
| HashLinkedLists.NewEntry | src/it/unicam/cs/asdl2425/mp1/HashLinkedList.java:75-79 | a new node holds the data together with the digest of that data, computed once at creation |
| HashLinkedLists.AddAtHead | src/it/unicam/cs/asdl2425/mp1/HashLinkedList.java:88-100 | the entries become the new (data, digest of data) entry followed by the old ones; size and modification count grow by one; head/tail stay null exactly when empty and point at the first/last entry; every entry still carries its own data's digest |
| HashLinkedLists.AddAtTail | src/it/unicam/cs/asdl2425/mp1/HashLinkedList.java:108-120 | the entries become the old ones followed by the new entry, and tail is that entry; size and modification count grow by one; the invariant and the per-entry digests are kept |
| HashLinkedLists.GetAllHashes | src/it/unicam/cs/asdl2425/mp1/HashLinkedList.java:127-135 | the snapshot has getSize() elements, and its i-th element is the digest of the i-th entry from the head |
| HashLinkedLists.Remove | src/it/unicam/cs/asdl2425/mp1/HashLinkedList.java:168-193 | returns true exactly when some entry holds the data; then only the first such entry is removed, the others keep their order, size drops by one and the modification count grows by one; otherwise the list (modification count included) is unchanged; the head/tail invariant holds afterwards, also when the last entry is removed |
| HashLinkedLists.RemoveKeepsDigests | src/it/unicam/cs/asdl2425/mp1/HashLinkedList.java:75-79 | the digest is computed once, when the entry is created: after a removal every remaining entry still carries the digest of its data |
| HashLinkedLists.Iterator | src/it/unicam/cs/asdl2425/mp1/HashLinkedList.java:208-216 | the iterator starts at the head with the current modification count, and hasNext holds exactly when the list is non-empty |
| HashLinkedLists.HasNext | src/it/unicam/cs/asdl2425/mp1/HashLinkedList.java:214-216 | hasNext holds exactly when some datum remains to be yielded |
| HashLinkedLists.Next | src/it/unicam/cs/asdl2425/mp1/HashLinkedList.java:218-226 | fails with a concurrent-modification error exactly when the list's count differs from the one the iterator saw; otherwise yields the next datum and advances by one entry |
| HashLinkedLists.CollectYieldsRest | src/it/unicam/cs/asdl2425/mp1/HashLinkedList.java:213-226 | calling next while hasNext holds on an unmodified list yields the data of the remaining entries in order |
| HashLinkedLists.IterationInListOrder | src/it/unicam/cs/asdl2425/mp1/HashLinkedList.java:195-226 | a fresh iterator over an unmodified list yields all its data, head to tail |
| HashLinkedLists.FailFast | src/it/unicam/cs/asdl2425/mp1/HashLinkedList.java:218-222 | for every valid list, empty or not: after an insertion at either end, next on an iterator created before it fails with a concurrent-modification error |
| HashLinkedLists.FailFastOnRemove | src/it/unicam/cs/asdl2425/mp1/HashLinkedList.java:168-193 | a removal that finds the datum makes next on an earlier iterator fail; one that finds nothing keeps the modification count the iterator saw; on a non-empty list next fails exactly when the datum was present |
| MerkleNodes.ParentHash | src/it/unicam/cs/asdl2425/mp1/MerkleTree.java:64-66 | a parent of two "" children has digest ""; when H never yields the sentinel, a parent's digest is "" exactly when both children's digests are "" |
| MerkleNodes.PaddingPropagatesDown | src/it/unicam/cs/asdl2425/mp1/MerkleTree.java:64-66 | when H never yields the sentinel, every node below a node with digest "" also has digest "": padding only arises from padding |
| MerkleNodes.SameLeavesSameTree | src/it/unicam/cs/asdl2425/mp1/MerkleTree.java:57-72 | two consistent perfect trees of the same height with the same leaf digests are equal: the pairing determines every internal node |
| MerkleBuild.CeilLog2 | src/it/unicam/cs/asdl2425/mp1/MerkleTree.java:75-80 | the least k with 2^k at least n |
| MerkleBuild.GetUpperTwoPower | src/it/unicam/cs/asdl2425/mp1/MerkleTree.java:75-80 | the result is the smallest power of two that is at least n |
| MerkleBuild.LeafLevel | src/it/unicam/cs/asdl2425/mp1/MerkleTree.java:49-56 | the leaf row has exactly `leafs` leaves: the digests in list order, then "" leaves |
| MerkleBuild.PairUp | src/it/unicam/cs/asdl2425/mp1/MerkleTree.java:58-69 | one pass of the pairing loop emits half as many parents; the j-th parent has children 2j and 2j+1 and digest "" when both are "", otherwise H of their concatenation |
| MerkleBuild.PairingRaisesRow | src/it/unicam/cs/asdl2425/mp1/MerkleTree.java:57-70 | a pass keeps the leaves in order and turns a row of perfect consistent trees of height k into one of height k+1 |
| MerkleBuild.ReduceToRoot | src/it/unicam/cs/asdl2425/mp1/MerkleTree.java:57-72 | the pairing loop ends with one root: a perfect consistent tree of height log2 of the row length, over the same leaves in order |
| MerkleBuild.Build | src/it/unicam/cs/asdl2425/mp1/MerkleTree.java:44-73 | fails with an illegal-argument error exactly when the list is empty; otherwise width is the list size, the tree is perfect of height ceil(log2 width), internal digests follow the parent rule, and the leaves are the list's digests in order followed by "" padding |
| MerkleBuild.RebuildIsIdentical | src/it/unicam/cs/asdl2425/mp1/MerkleTree.java:44-73 | two trees built over the same digest list are identical |
| MerkleBuild.GetHeight | src/it/unicam/cs/asdl2425/mp1/MerkleTree.java:105-113 | following left children from the root of a perfect tree of height k counts k edges, and the tree has 2^k leaves |
| MerkleSearch.SearchIntoNode | src/it/unicam/cs/asdl2425/mp1/MerkleTree.java:143-159 | the result is the 0-based position of the first leaf under the node with the digest, counted from the node's leftmost leaf, or -1 exactly when there is none; it is below the node's leaf count |
| MerkleSearch.GetIndexOfData | src/it/unicam/cs/asdl2425/mp1/MerkleTree.java:189-191 | the index is the first leaf position holding the datum's digest, and it is not -1 exactly when validateData holds |
| MerkleSearch.IndexInBuiltTree | src/it/unicam/cs/asdl2425/mp1/MerkleTree.java:175-191 | in a constructed tree, a non-padding digest's index is its first position in the list the tree was built from, and it occurs among the leaves exactly when it occurs in that list |
| MerkleSearch.CheckBranchIntoTree | src/it/unicam/cs/asdl2425/mp1/MerkleTree.java:166-173 | true exactly when some node under the tree (itself included) has the branch's digest |
| MerkleSearch.GetIndexOfDataInBranch | src/it/unicam/cs/asdl2425/mp1/MerkleTree.java:137-141 | fails with an illegal-argument error exactly when no node of the tree has the branch's digest; otherwise the first position of the datum's digest among the branch's leaves, or -1 |
| MerkleSearch.ValidateBranch | src/it/unicam/cs/asdl2425/mp1/MerkleTree.java:225-227 | true exactly when some node reachable from the root has the branch's digest |
| MerkleSearch.CheckHashIntoLeafs | src/it/unicam/cs/asdl2425/mp1/MerkleTree.java:207-212 | true exactly when some leaf under the node carries the digest |
| MerkleSearch.ValidateData | src/it/unicam/cs/asdl2425/mp1/MerkleTree.java:203-205 | true exactly when the datum's digest is the digest of some leaf |
| MerkleProofs.PathToDescendant | src/it/unicam/cs/asdl2425/mp1/MerkleTree.java:387-403 | a path exists exactly when some node under the start has the digest; it starts at the start node, is a parent-to-child chain, ends at a node with the digest and passes no earlier node with it |
| MerkleProofs.LeftSubtreePreferred | src/it/unicam/cs/asdl2425/mp1/MerkleTree.java:396-399 | when the left subtree holds the digest, the path goes through the left child |
| MerkleProofs.PathEndsAtFirstMatch | src/it/unicam/cs/asdl2425/mp1/MerkleTree.java:387-403 | the path's last node is the first node in pre-order (node, left, right) carrying the digest |
| MerkleProofs.SiblingEntry | src/it/unicam/cs/asdl2425/mp1/MerkleTree.java:364-370 | a step flagged true has the son as right child and the left child's digest as sibling; a step flagged false has the right child's digest as sibling, with the son's digest equal to the left child's |
| MerkleProofs.ProofEntries | src/it/unicam/cs/asdl2425/mp1/MerkleTree.java:361-373 | one entry per edge of the path, the j-th for the j-th edge counted from the bottom, so the list runs from the target's parent up to the start |
| MerkleProofs.ProofFromPath | src/it/unicam/cs/asdl2425/mp1/MerkleTree.java:361-373 | the proof is anchored to the root digest, and its length is the number of path nodes minus one, which is the number of entries |
| MerkleProofs.GetMerkleProofOfHash | src/it/unicam/cs/asdl2425/mp1/MerkleTree.java:326-330 | fails with an illegal-argument error exactly when no node has the digest; otherwise the proof is anchored to the root digest and its length equals its entry count |
| MerkleProofs.GetMerkleProofOfData | src/it/unicam/cs/asdl2425/mp1/MerkleTree.java:323-331 | fails exactly when no node has the datum's digest; otherwise the proof is anchored to the root digest and its length equals its entry count |
| MerkleProofs.GetMerkleProofOfBranch | src/it/unicam/cs/asdl2425/mp1/MerkleTree.java:352-359 | fails exactly when no node has the branch's digest; otherwise the proof is anchored to the root digest and its length equals its entry count |
| MerkleProofs.StepRebuildsParent | src/it/unicam/cs/asdl2425/mp1/MerkleTree.java:364-370 | combining the son's digest with its entry on the flagged side gives the parent's digest, even when both children share a digest |
| MerkleProofs.PathFoldsToStart | src/it/unicam/cs/asdl2425/mp1/MerkleTree.java:361-373 | folding H along the entries of a found path, from the target digest, gives the digest of the path's first node |
| MerkleProofs.ProofFoldsToRoot | src/it/unicam/cs/asdl2425/mp1/MerkleTree.java:305-331 | round trip: folding H along a returned proof from the digest it was requested for gives the proof's root digest, which is the tree's root digest |
| MerkleProofs.ProofLengthIsHeight | src/it/unicam/cs/asdl2425/mp1/MerkleTree.java:323-331 | in a perfect tree of height k, a proof for a datum whose path ends at a leaf has length k |
| MerkleDiff.FindInvalidFrom | src/it/unicam/cs/asdl2425/mp1/MerkleTree.java:290-303 | the corrected diff behind `MerkleDiff.FindInvalidDataIndices` (each differing leaf at its own position; see Findings): a leaf paired with an internal node fails with an illegal-argument error, same-shaped trees never fail, and every recorded index lies within the compared subtree's leaves |
| MerkleDiff.FindInvalidAsWritten | src/it/unicam/cs/asdl2425/mp1/MerkleTree.java:290-303 | `findInvalidDataIndicesRecursive` as written: a leaf paired with an internal node fails with an illegal-argument error, same-shaped trees never fail, and every recorded index is a leaf position of the whole tree or -1; `MerkleDiff.AsWrittenIsFirstOccurrences` states which position it records |
| MerkleDiff.FindInvalidDataIndicesAsWritten | src/it/unicam/cs/asdl2425/mp1/MerkleTree.java:271-275 | `findInvalidDataIndices` as written, started at the two roots; related to the corrected diff by `MerkleDiff.AsWrittenIsFirstOccurrences` and `MerkleDiff.AsWrittenCorrectWithoutDuplicates` |
| MerkleDiff.ValidateTree | src/it/unicam/cs/asdl2425/mp1/MerkleTree.java:241-249 | computed as the code does, from the as-written diff with a failure caught as false; it holds exactly when the corrected diff is `Ok({})` |
| MerkleDiff.DiffSound | src/it/unicam/cs/asdl2425/mp1/MerkleTree.java:290-303 | of the corrected diff `MerkleDiff.FindInvalidDataIndices`: for same-shaped trees, every recorded index is a position where the two leaf digests differ |
| MerkleDiff.DiffComplete | src/it/unicam/cs/asdl2425/mp1/MerkleTree.java:290-303 | of the corrected diff `MerkleDiff.FindInvalidDataIndices`: for same-shaped trees without digest collisions (`Separating`), every position where the leaf digests differ is recorded, despite the stop at equal subtrees |
| MerkleDiff.DiffExact | src/it/unicam/cs/asdl2425/mp1/MerkleTree.java:271-275 | of the corrected diff `MerkleDiff.FindInvalidDataIndices`: for same-shaped trees without digest collisions (`Separating`), the result is exactly the set of positions where the leaves differ |
| MerkleDiff.ValidateTreeOnSameLeaves | src/it/unicam/cs/asdl2425/mp1/MerkleTree.java:241-249 | trees of the same height with the same leaf digests validate, in particular a tree and a rebuild over the same list |
| MerkleDiff.ValidateTreeIffSameLeaves | src/it/unicam/cs/asdl2425/mp1/MerkleTree.java:241-249 | for trees of the same height without digest collisions, validation holds exactly when the leaf digests are equal |
| MerkleDiff.TamperedLeafReported | src/it/unicam/cs/asdl2425/mp1/MerkleTree.java:271-275 | of the corrected diff `MerkleDiff.FindInvalidDataIndices`: for two perfect trees of the same height without digest collisions (`Separating`) whose leaves differ at position i and nowhere else, the result is exactly {i} |
| MerkleDiff.DifferentHeightsMismatch | src/it/unicam/cs/asdl2425/mp1/MerkleTree.java:297-298 | trees of different heights whose paired internal nodes down the two left spines have different digests (`LeftSpineDistinct`) always reach a leaf paired with an internal node, so the comparison fails |
| MerkleDiff.ValidateTreeDifferentHeights | src/it/unicam/cs/asdl2425/mp1/MerkleTree.java:241-249 | for trees of different heights with distinct left spines (`LeftSpineDistinct`), both the corrected diff and the diff as written fail, and validateTree catches the failure and returns false |
| MerkleDiff.SeparatingGivesLeftSpine | src/it/unicam/cs/asdl2425/mp1/MerkleTree.java:297-301 | for trees of different heights, no collision between corresponding subtrees implies distinct digests down the two left spines, the pairs the comparison walks before it throws |
| MerkleDiff.AsWrittenIsFirstOccurrences | src/it/unicam/cs/asdl2425/mp1/MerkleTree.java:293-294 | `findInvalidDataIndicesRecursive` as written fails exactly when the corrected diff does, and otherwise reports each corrected index replaced by the first leaf position holding the same digest |
| MerkleDiff.AsWrittenCorrectWithoutDuplicates | src/it/unicam/cs/asdl2425/mp1/MerkleTree.java:293-294 | when no two leaves of this tree share a digest, `findInvalidDataIndices` as written equals the corrected diff |
| MerkleDiff.AsWrittenSameValidation | src/it/unicam/cs/asdl2425/mp1/MerkleTree.java:241-249 | `findInvalidDataIndices` as written is the empty set exactly when the corrected diff is, so validateTree is not affected by the misreported indices |
| MerkleDiff.DuplicateDataMisreported | src/it/unicam/cs/asdl2425/mp1/MerkleTree.java:293-294 | for the trees built over ["x","x"] and ["x","y"], the code as written reports {0} while the leaves differ at {1} |
| MerkleDiff.FiveAndSevenBuilt | src/it/unicam/cs/asdl2425/mp1/MerkleTree.java:44-73 | the two example trees of the padding counterexample are what the constructor builds over five and seven digests |
| MerkleDiff.PaddingMisreported | src/it/unicam/cs/asdl2425/mp1/MerkleTree.java:293-294 | for the trees over five and seven digests, the code as written reports {5} while the leaves differ at {5, 6} |

## Left out

- `buildNodesString` (HashLinkedList.java:151-159) only formats entries for display, using `T.toString`.
- `getRoot` and `getWidth` are the fields `root` and `width` of `MerkleTree`. `getSize` is the field `size`, tied to the entries by `Valid`.
- Null arguments are not modelled, because Dafny values cannot be null. This covers the explicit checks (`validateTree(null)`, `getIndexOfData(null, …)`, `getMerkleProof(null)`) and the unchecked ones that would throw a `NullPointerException`.
- `HashUtil` is not part of this model. Its two primitives are the parameters `dataHash` and `H`. The only property assumed of `H` is that it never returns `""`. Collision freedom, where a result needs it, is an explicit hypothesis: `Separating` or `LeftSpineDistinct`.
- `MerkleNode` and `MerkleProof` are not part of this model. They are the datatypes `Node` and `MerkleProof`. The proof's own verification method is not modelled. `MerkleProofs.Fold` is this model's own reading of "combine with each entry in turn".
- Object identity is not modelled: node equality is digest equality.
- `MerkleBuild.GetUpperTwoPower`: Java `int` overflow is not modelled. For `n > 2^30` the Java loop would wrap and never terminate. The model's result is unbounded.
- `HashLinkedLists.AddAtHead`, `HashLinkedLists.AddAtTail`, `HashLinkedLists.Remove`: `size` and the modification counter are unbounded. Java's 32-bit wrap-around is not modelled.
- `HashLinkedLists.Next`: requires that the iterator has a next entry, unless the list was modified. Java's `NullPointerException` when `next` is called past the end is not modelled.
- `MerkleDiff.DiffComplete`, `MerkleDiff.DiffExact`, `MerkleDiff.ValidateTreeIffSameLeaves`, `MerkleDiff.TamperedLeafReported`: these hold only under `Separating`: corresponding subtrees with different leaves have different digests. For the same-height trees these lemmas are about, that means no digest collision between corresponding subtrees. With a collision, the code also stops descending and misses differences.
- `MerkleDiff.DifferentHeightsMismatch`, `MerkleDiff.ValidateTreeDifferentHeights`: these hold only under `LeftSpineDistinct`: paired internal nodes down the two left spines have different digests. With a collision there, the code stops at equal digests and returns without throwing. `MerkleDiff.SeparatingGivesLeftSpine` shows that `Separating` implies it for trees of different heights.
- `MerkleProofs.ProofLengthIsHeight`: covers only a digest whose first match is a leaf. A digest that first matches an internal node gives a shorter proof.
- `MerkleProofs.ProofFoldsToRoot`: assumes `NeverPadding(H)`.
- Performance claims are not modelled: constant-time tail insertion and the "constant time" validation comment. Java's `Stack`, `ArrayList` and `HashSet` become `seq` and `set`.
- The fail-fast exception is the `Result` error `ConcurrentModification`. The structural-mismatch exception is `IllegalArgument`.

## Findings

| source | as written | input that shows it | evidently intended | confidence | as-written member | corrected member |
|---|---|---|---|---|---|---|
| src/it/unicam/cs/asdl2425/mp1/MerkleTree.java:293-294 | A differing leaf is recorded as `searchIntoNode(root, leafDigest)`, which is the FIRST leaf anywhere in the tree with that digest. | Duplicate data: trees over `["x","x"]` and `["x","y"]` give `{0}`, but the leaves differ at index 1 (`MerkleDiff.DuplicateDataMisreported`). Padding: trees over `[a,b,c,d,e]` and `[a,b,c,d,e,f,g]` give `{5}`, but the leaves differ at 5 and 6, because both are padding leaves in this tree (`MerkleDiff.PaddingMisreported`). | The documentation defines the indices as positions in the last level, left to right. The intended diff records each differing leaf's own position. | not executed | MerkleDiff.FindInvalidDataIndicesAsWritten | MerkleDiff.FindInvalidDataIndices |

`MerkleDiff.FindInvalidDataIndices` computes the corrected diff. It tracks the position of each subtree's leftmost leaf. `MerkleDiff.DiffExact` proves that it returns exactly the positions where the leaves differ. `MerkleDiff.ValidateTree` is computed from the as-written diff, as `validateTree` is, and its contract ties it to the corrected one.

`MerkleDiff.AsWrittenIsFirstOccurrences` describes the diff as written in general: every corrected index is replaced by the first position holding the same digest. `MerkleDiff.AsWrittenCorrectWithoutDuplicates` shows that the two agree when this tree has no repeated digests. `MerkleDiff.AsWrittenSameValidation` shows that they are empty together, so `validateTree` returns the same answer either way.

=== FILE: hash_linked_list.dfy ===
/**
  A singly linked list of (data, digest) entries with head and tail
  references, a size counter and a modification counter that drives a
  fail-fast iterator.

  The chain of linked nodes is abstracted by `entries`, the nodes in
  head-to-tail order. The `head` and `tail` references are kept as the
  entries they point at. `Valid` determines them from `entries`; they exist
  only so that the pointer updates of `remove` can be followed branch by
  branch and the invariant re-established after each of them.
  The digest primitive is the parameter `dataHash`.
*/
module HashLinkedLists {
  import opened Wrappers
  import opened Sequences

  /** One node of the chain: the data and the digest computed when it was inserted. */
  datatype Entry<T> = Entry(data: T, hash: string)

  datatype HashLinkedList<T> = HashLinkedList(
    entries: seq<Entry<T>>,
    head: Option<Entry<T>>,
    tail: Option<Entry<T>>,
    size: nat,
    modCount: nat)

  /** The data of the entries, head to tail. */
  function DataOf<T>(es: seq<Entry<T>>): seq<T> {
    seq(|es|, i requires 0 <= i < |es| => es[i].data)
  }

  /** The digests of the entries, head to tail. */
  function Hashes<T>(es: seq<Entry<T>>): seq<string> {
    seq(|es|, i requires 0 <= i < |es| => es[i].hash)
  }

  /** The representation invariant: the counter matches the chain, and
      head/tail are null exactly when the list is empty and otherwise
      reference the first and the last entry. */
  ghost predicate Valid<T>(l: HashLinkedList<T>) {
    && l.size == |l.entries|
    && l.head == (if |l.entries| == 0 then None else Some(l.entries[0]))
    && l.tail == (if |l.entries| == 0 then None else Some(l.entries[|l.entries| - 1]))
  }

  /** Every entry carries the digest of its own data. */
  ghost predicate EntriesHashed<T>(l: HashLinkedList<T>, dataHash: T -> string) {
    forall e :: e in l.entries ==> e.hash == dataHash(e.data)
  }

  /** The empty list built by the constructor. */
  function Empty<T>(): (l: HashLinkedList<T>)
    ensures Valid(l) && l.entries == [] && l.modCount == 0
  {
    HashLinkedList([], None, None, 0, 0)
  }

  /** The node constructor: the digest is computed once, here, from the
      data the entry holds. */
  function NewEntry<T>(data: T, dataHash: T -> string): (e: Entry<T>)
    ensures e.data == data
    ensures e.hash == dataHash(e.data)
  {
    Entry(data, dataHash(data))
  }

  function AddAtHead<T>(l: HashLinkedList<T>, data: T, dataHash: T -> string): (r: HashLinkedList<T>)
    requires Valid(l)
    ensures Valid(r)
    ensures r.entries == [Entry(data, dataHash(data))] + l.entries
    ensures r.size == l.size + 1 && r.modCount == l.modCount + 1
    ensures EntriesHashed(l, dataHash) ==> EntriesHashed(r, dataHash)
  {
    var n := NewEntry(data, dataHash);
    if l.head.None? then
      HashLinkedList([n], Some(n), Some(n), l.size + 1, l.modCount + 1)
    else
      HashLinkedList([n] + l.entries, Some(n), l.tail, l.size + 1, l.modCount + 1)
  }

  function AddAtTail<T>(l: HashLinkedList<T>, data: T, dataHash: T -> string): (r: HashLinkedList<T>)
    requires Valid(l)
    ensures Valid(r)
    ensures r.entries == l.entries + [Entry(data, dataHash(data))]
    ensures r.tail == Some(Entry(data, dataHash(data)))
    ensures r.size == l.size + 1 && r.modCount == l.modCount + 1
    ensures EntriesHashed(l, dataHash) ==> EntriesHashed(r, dataHash)
  {
    var n := NewEntry(data, dataHash);
    if l.tail.None? then
      HashLinkedList([n], Some(n), Some(n), l.size + 1, l.modCount + 1)
    else
      HashLinkedList(l.entries + [n], l.head, Some(n), l.size + 1, l.modCount + 1)
  }

  /** Walks the chain from the head, collecting the digests. */
  method GetAllHashes<T>(l: HashLinkedList<T>) returns (list: seq<string>)
    requires Valid(l)
    ensures |list| == l.size
    ensures forall i :: 0 <= i < |list| ==> list[i] == l.entries[i].hash
  {
    list := [];
    var i := 0;
    while i < |l.entries|
      invariant 0 <= i <= |l.entries|
      invariant |list| == i
      invariant forall j :: 0 <= j < i ==> list[j] == l.entries[j].hash
    {
      list := list + [l.entries[i].hash];
      i := i + 1;
    }
  }

  /** Unlinks the first entry whose data equals `data`. The first component
      of the result says whether such an entry was found. */
  function Remove<T(==)>(l: HashLinkedList<T>, data: T): (r: (bool, HashLinkedList<T>))
    requires Valid(l)
    ensures Valid(r.1)
    ensures r.0 <==> data in DataOf(l.entries)
    ensures !r.0 ==> r.1 == l
    ensures r.0 ==>
      && r.1.size == l.size - 1
      && r.1.modCount == l.modCount + 1
      && exists k :: 0 <= k < |l.entries|
           && l.entries[k].data == data
           && (forall j :: 0 <= j < k ==> l.entries[j].data != data)
           && r.1.entries == l.entries[..k] + l.entries[k + 1..]
  {
    var es := l.entries;
    var k := FirstIndex(DataOf(es), data);
    if k < 0 then (false, l)
    else
      var prev := if k == 0 then None else Some(es[k - 1]);
      var next := if k + 1 < |es| then Some(es[k + 1]) else None;
      var head := if prev.None? then next else l.head;
      var tail := if next.None? then prev else l.tail;
      var rest := es[..k] + es[k + 1..];
      assert forall j :: 0 <= j < k ==> DataOf(es)[..k][j] == es[j].data;
      (true, HashLinkedList(rest, head, tail, l.size - 1, l.modCount + 1))
  }

  /** Removal keeps each remaining entry's digest: digests are never recomputed. */
  lemma RemoveKeepsDigests<T>(l: HashLinkedList<T>, data: T, dataHash: T -> string)
    requires Valid(l) && EntriesHashed(l, dataHash)
    ensures EntriesHashed(Remove(l, data).1, dataHash)
  {
  }

  /** The fail-fast iterator: the nodes still to visit and the modification
      count seen when the iterator was created. */
  datatype Itr<T> = Itr(rest: seq<Entry<T>>, expectedModCount: nat)

  function Iterator<T>(l: HashLinkedList<T>): (it: Itr<T>)
    requires Valid(l)
    ensures it.rest == l.entries
    ensures it.expectedModCount == l.modCount
    ensures HasNext(it) <==> l.size > 0
  {
    Itr(l.entries, l.modCount)
  }

  /** There is something left to yield. */
  predicate HasNext<T>(it: Itr<T>)
    ensures HasNext(it) <==> DataOf(it.rest) != []
  {
    |it.rest| > 0
  }

  /** Fails when the list was modified since the iterator was created;
      otherwise yields the next datum and advances. */
  function Next<T>(l: HashLinkedList<T>, it: Itr<T>): (r: Result<(T, Itr<T>)>)
    requires it.expectedModCount != l.modCount || HasNext(it)
    ensures r.Err? <==> it.expectedModCount != l.modCount
    ensures r.Err? ==> r.error == ConcurrentModification
    ensures r.Ok? ==> r.value.0 == it.rest[0].data && r.value.1.rest == it.rest[1..]
    ensures r.Ok? ==> r.value.1.expectedModCount == it.expectedModCount
  {
    if l.modCount != it.expectedModCount then Err(ConcurrentModification)
    else Ok((it.rest[0].data, Itr(it.rest[1..], it.expectedModCount)))
  }

  /** Calls `next` while `hasNext` holds, collecting what it yields. */
  function Collect<T>(l: HashLinkedList<T>, it: Itr<T>): Result<seq<T>>
    decreases |it.rest|
  {
    if !HasNext(it) then Ok([])
    else
      match Next(l, it)
      case Err(e) => Err(e)
      case Ok((x, it')) =>
        match Collect(l, it')
        case Err(e) => Err(e)
        case Ok(xs) => Ok([x] + xs)
  }

  /** An iterator over an unmodified list yields its data in list order. */
  lemma {:induction false} CollectYieldsRest<T>(l: HashLinkedList<T>, it: Itr<T>)
    requires it.expectedModCount == l.modCount
    ensures Collect(l, it) == Ok(DataOf(it.rest))
    decreases |it.rest|
  {
    if HasNext(it) {
      var it' := Itr(it.rest[1..], it.expectedModCount);
      CollectYieldsRest(l, it');
      assert Next(l, it) == Ok((it.rest[0].data, it'));
      assert DataOf(it.rest) == [it.rest[0].data] + DataOf(it.rest[1..]);
      assert Collect(l, it) == Ok([it.rest[0].data] + DataOf(it.rest[1..]));
    } else {
      assert DataOf(it.rest) == [];
    }
  }

  lemma IterationInListOrder<T>(l: HashLinkedList<T>)
    requires Valid(l)
    ensures Collect(l, Iterator(l)) == Ok(DataOf(l.entries))
  {
    CollectYieldsRest(l, Iterator(l));
  }

  /** After an insertion at either end every iterator created before it
      fails on `next`, also when the list was empty. */
  lemma FailFast<T>(l: HashLinkedList<T>, data: T, dataHash: T -> string)
    requires Valid(l)
    ensures Next(AddAtHead(l, data, dataHash), Iterator(l)).Err?
    ensures Next(AddAtTail(l, data, dataHash), Iterator(l)).Err?
  {
  }

  /** A removal that finds its datum makes every earlier iterator fail on
      `next`; one that finds nothing leaves the modification count, and so
      every iterator, as it was. */
  lemma FailFastOnRemove<T>(l: HashLinkedList<T>, data: T)
    requires Valid(l)
    ensures Remove(l, data).0 ==> Next(Remove(l, data).1, Iterator(l)).Err?
    ensures !Remove(l, data).0 ==> Remove(l, data).1.modCount == Iterator(l).expectedModCount
    ensures l.size > 0 ==> (Next(Remove(l, data).1, Iterator(l)).Err? <==> data in DataOf(l.entries))
  {
  }
}

=== FILE: merkle_build.dfy ===
/**
  Construction of a Merkle tree from the digests of a hash linked list, and
  the height query.

  The constructor pads the leaf row with sentinel leaves up to the next power
  of two, then pairs adjacent nodes row by row until one node, the root, is
  left. Each step is kept as a loop, as in the constructor.
*/
module MerkleBuild {
  import opened Wrappers
  import opened MerkleNodes
  import opened HashLinkedLists

  /** The least `k` with 2^k >= n. */
  function CeilLog2(n: nat): (k: nat)
    ensures Pow2(k) >= n
    ensures k == 0 || Pow2(k - 1) < n
    decreases n
  {
    if n <= 1 then 0
    else
      var k := CeilLog2((n + 1) / 2);
      assert Pow2(k + 1) == 2 * Pow2(k);
      k + 1
  }

  lemma {:induction false} Pow2Monotone(i: nat, j: nat)
    requires i <= j
    ensures Pow2(i) <= Pow2(j)
    decreases j
  {
    if i < j {
      Pow2Monotone(i, j - 1);
    }
  }

  /** The tree a successful construction yields over the digests `hashes`:
      a perfect tree of height ceil(log2 |hashes|) whose leaves are `hashes`
      in order followed by padding, and whose internal digests follow the
      parent rule. */
  ghost predicate BuiltFrom(t: MerkleTree, H: string -> string, hashes: seq<string>) {
    && |hashes| > 0
    && t.width == |hashes|
    && Perfect(t.root, CeilLog2(|hashes|))
    && Consistent(t.root, H)
    && Leaves(t.root) == hashes + Pads(Pow2(CeilLog2(|hashes|)) - |hashes|)
  }

  /** Doubles from 1 until reaching `n`. */
  method GetUpperTwoPower(n: nat) returns (result: nat)
    ensures result >= n
    ensures result == 1 || result / 2 < n
    ensures result == Pow2(CeilLog2(n))
  {
    result := 1;
    ghost var j: nat := 0;
    while result < n
      invariant result == Pow2(j)
      invariant j <= CeilLog2(n)
      decreases n - result
    {
      if j == CeilLog2(n) {
        assert false;
      }
      result := result * 2;
      j := j + 1;
    }
    if j < CeilLog2(n) {
      Pow2Monotone(j, CeilLog2(n) - 1);
      assert false;
    }
  }

  /** One leaf per digest of the list, then sentinel leaves up to `leafs`. */
  method LeafLevel(allHashes: seq<string>, leafs: nat) returns (nodes: seq<Node>)
    requires |allHashes| <= leafs
    ensures |nodes| == leafs
    ensures forall i :: 0 <= i < |nodes| ==> nodes[i].Leaf?
    ensures LeavesOf(nodes) == allHashes + Pads(leafs - |allHashes|)
  {
    nodes := [];
    var i := 0;
    while i < |allHashes|
      invariant 0 <= i <= |allHashes| && |nodes| == i
      invariant forall j :: 0 <= j < i ==> nodes[j].Leaf?
      invariant LeavesOf(nodes) == allHashes[..i]
    {
      LeavesOfAppend(nodes, [Leaf(allHashes[i])]);
      nodes := nodes + [Leaf(allHashes[i])];
      assert allHashes[..i + 1] == allHashes[..i] + [allHashes[i]];
      i := i + 1;
    }
    assert allHashes[..i] == allHashes;
    while i < leafs
      invariant |allHashes| <= i <= leafs && |nodes| == i
      invariant forall j :: 0 <= j < i ==> nodes[j].Leaf?
      invariant LeavesOf(nodes) == allHashes + Pads(i - |allHashes|)
    {
      LeavesOfAppend(nodes, [Leaf(Padding)]);
      nodes := nodes + [Leaf(Padding)];
      assert Pads(i + 1 - |allHashes|) == Pads(i - |allHashes|) + [Padding];
      i := i + 1;
    }
  }

  /** `parents` is the row above `nodes`: the j-th parent joins nodes 2j and 2j+1. */
  ghost predicate IsPairing(H: string -> string, nodes: seq<Node>, parents: seq<Node>) {
    && |nodes| == 2 * |parents|
    && forall j :: 0 <= j < |parents| ==>
         parents[j] == Internal(ParentHash(H, nodes[2 * j].hash, nodes[2 * j + 1].hash), nodes[2 * j], nodes[2 * j + 1])
  }

  /** A row of perfect, consistent trees, all of height `k`. */
  ghost predicate UniformRow(H: string -> string, nodes: seq<Node>, k: nat) {
    forall i :: 0 <= i < |nodes| ==> Perfect(nodes[i], k) && Consistent(nodes[i], H)
  }

  /** One pass of the constructor's outer loop: walks the row keeping a
      pending left node, and emits a parent for every pair. A trailing odd
      node would be dropped; rows here always have even length. */
  method PairUp(H: string -> string, nodes: seq<Node>) returns (parents: seq<Node>)
    requires |nodes| % 2 == 0
    ensures IsPairing(H, nodes, parents)
  {
    parents := [];
    var left: Option<Node> := None;
    var i := 0;
    while i < |nodes|
      invariant 0 <= i <= |nodes|
      invariant |parents| == i / 2
      invariant left == (if i % 2 == 1 then Some(nodes[i - 1]) else None)
      invariant forall j :: 0 <= j < |parents| ==>
        parents[j] == Internal(ParentHash(H, nodes[2 * j].hash, nodes[2 * j + 1].hash), nodes[2 * j], nodes[2 * j + 1])
    {
      var n := nodes[i];
      if left.None? {
        left := Some(n);
      } else {
        var l := left.value;
        var p := if n.hash == Padding && l.hash == Padding then Internal(Padding, l, n) else Internal(H(l.hash + n.hash), l, n);
        parents := parents + [p];
        left := None;
      }
      i := i + 1;
    }
  }

  /** Dropping the first pair of a row drops the first parent. */
  lemma PairingTail(H: string -> string, nodes: seq<Node>, parents: seq<Node>)
    requires IsPairing(H, nodes, parents) && |parents| > 0
    ensures IsPairing(H, nodes[2..], parents[1..])
  {
    forall j | 0 <= j < |parents| - 1
      ensures parents[1..][j] == Internal(ParentHash(H, nodes[2..][2 * j].hash, nodes[2..][2 * j + 1].hash),
                                          nodes[2..][2 * j], nodes[2..][2 * j + 1])
    {
      assert parents[1..][j] == parents[j + 1];
      assert nodes[2..][2 * j] == nodes[2 * (j + 1)] && nodes[2..][2 * j + 1] == nodes[2 * (j + 1) + 1];
    }
  }

  lemma UniformTail(H: string -> string, nodes: seq<Node>, k: nat)
    requires UniformRow(H, nodes, k) && |nodes| >= 2
    ensures UniformRow(H, nodes[2..], k)
  {
    forall i | 0 <= i < |nodes| - 2
      ensures Perfect(nodes[2..][i], k) && Consistent(nodes[2..][i], H)
    {
      assert nodes[2..][i] == nodes[i + 2];
    }
  }

  lemma LeavesOfPair(nodes: seq<Node>)
    requires |nodes| >= 2
    ensures LeavesOf(nodes) == Leaves(nodes[0]) + Leaves(nodes[1]) + LeavesOf(nodes[2..])
  {
    assert nodes[1..][1..] == nodes[2..];
  }

  /** A parent of two perfect consistent trees of height k is one of height k+1. */
  lemma ParentRaises(H: string -> string, l: Node, r: Node, k: nat)
    requires Perfect(l, k) && Perfect(r, k) && Consistent(l, H) && Consistent(r, H)
    ensures Perfect(Internal(ParentHash(H, l.hash, r.hash), l, r), k + 1)
    ensures Consistent(Internal(ParentHash(H, l.hash, r.hash), l, r), H)
  {
  }

  /** Pairing keeps the leaves in order and raises a row of perfect,
      consistent trees by one level. */
  lemma {:induction false} PairingRaisesRow(H: string -> string, nodes: seq<Node>, parents: seq<Node>, k: nat)
    requires IsPairing(H, nodes, parents)
    requires UniformRow(H, nodes, k)
    ensures LeavesOf(parents) == LeavesOf(nodes)
    ensures UniformRow(H, parents, k + 1)
    decreases |parents|
  {
    if |parents| > 0 {
      PairingTail(H, nodes, parents);
      UniformTail(H, nodes, k);
      PairingRaisesRow(H, nodes[2..], parents[1..], k);
      LeavesOfPair(nodes);
      ParentRaises(H, nodes[0], nodes[1], k);
      assert parents[0] == Internal(ParentHash(H, nodes[0].hash, nodes[1].hash), nodes[0], nodes[1]);
      forall j | 0 <= j < |parents|
        ensures Perfect(parents[j], k + 1) && Consistent(parents[j], H)
      {
        if j > 0 {
          assert parents[j] == parents[1..][j - 1];
        }
      }
    } else {
      assert nodes == [];
    }
  }

  /** Below the root level a row of 2^(height-k) nodes has at least two
      nodes and halves when paired. */
  lemma RowHalves(height: nat, k: nat)
    requires k < height
    ensures Pow2(height - k) == 2 * Pow2(height - (k + 1))
    ensures Pow2(height - k) >= 2
  {
  }

  lemma LeavesOfSingle(nodes: seq<Node>)
    requires |nodes| == 1
    ensures LeavesOf(nodes) == Leaves(nodes[0])
  {
    assert LeavesOf(nodes[1..]) == [];
  }

  /** The constructor's outer loop: pairs rows until one node is left. */
  method ReduceToRoot(H: string -> string, leaves: seq<Node>, ghost height: nat) returns (root: Node)
    requires |leaves| == Pow2(height)
    requires forall i :: 0 <= i < |leaves| ==> leaves[i].Leaf?
    ensures Perfect(root, height) && Consistent(root, H)
    ensures Leaves(root) == LeavesOf(leaves)
  {
    var nodes := leaves;
    ghost var k: nat := 0;
    LeafRowUniform(H, leaves);
    while |nodes| > 1
      invariant k <= height
      invariant |nodes| == Pow2(height - k)
      invariant UniformRow(H, nodes, k)
      invariant LeavesOf(nodes) == LeavesOf(leaves)
      decreases |nodes|
    {
      if k == height {
        assert false;
      }
      var newList := PairUp(H, nodes);
      RowStep(H, nodes, newList, k, height);
      nodes := newList;
      k := k + 1;
    }
    LastRow(H, nodes, k, height);
    root := nodes[0];
  }

  /** A row of leaves is a uniform row of height 0. */
  lemma LeafRowUniform(H: string -> string, leaves: seq<Node>)
    requires forall i :: 0 <= i < |leaves| ==> leaves[i].Leaf?
    ensures UniformRow(H, leaves, 0)
  {
  }

  /** One pass of the outer loop keeps its invariant, one level higher. */
  lemma RowStep(H: string -> string, nodes: seq<Node>, parents: seq<Node>, k: nat, height: nat)
    requires k < height && |nodes| == Pow2(height - k)
    requires UniformRow(H, nodes, k) && IsPairing(H, nodes, parents)
    ensures |parents| == Pow2(height - (k + 1))
    ensures UniformRow(H, parents, k + 1)
    ensures LeavesOf(parents) == LeavesOf(nodes)
  {
    RowHalves(height, k);
    PairingRaisesRow(H, nodes, parents, k);
  }

  /** When the loop stops, one node of full height is left. */
  lemma LastRow(H: string -> string, nodes: seq<Node>, k: nat, height: nat)
    requires k <= height && |nodes| == Pow2(height - k) && |nodes| <= 1
    requires UniformRow(H, nodes, k)
    ensures |nodes| == 1 && k == height
    ensures Perfect(nodes[0], height) && Consistent(nodes[0], H)
    ensures LeavesOf(nodes) == Leaves(nodes[0])
  {
    if k < height {
      RowHalves(height, k);
      assert false;
    }
    LeavesOfSingle(nodes);
  }

  /** The constructor: fails on an empty list, otherwise builds the tree. */
  method Build<T>(H: string -> string, hashList: HashLinkedList<T>) returns (r: Result<MerkleTree>)
    requires Valid(hashList)
    ensures r.Err? <==> hashList.size == 0
    ensures r.Err? ==> r.error == IllegalArgument
    ensures r.Ok? ==> BuiltFrom(r.value, H, Hashes(hashList.entries))
  {
    if hashList.size == 0 {
      return Err(IllegalArgument);
    }
    var width := hashList.size;
    var leafs := GetUpperTwoPower(width);
    var allHashes := GetAllHashes(hashList);
    assert allHashes == Hashes(hashList.entries);
    var nodes := LeafLevel(allHashes, leafs);
    var root := ReduceToRoot(H, nodes, CeilLog2(width));
    return Ok(MerkleTree(root, width));
  }

  /** Rebuilding over the same digests yields the same tree. */
  lemma RebuildIsIdentical(a: MerkleTree, b: MerkleTree, H: string -> string, hashes: seq<string>)
    requires BuiltFrom(a, H, hashes) && BuiltFrom(b, H, hashes)
    ensures a == b
  {
    SameLeavesSameTree(a.root, b.root, CeilLog2(|hashes|), H);
  }

  /** Follows left children from the root down to a leaf. */
  method GetHeight(t: MerkleTree, ghost k: nat) returns (len: nat)
    requires Perfect(t.root, k)
    ensures len == k
    ensures |Leaves(t.root)| == Pow2(len)
  {
    PerfectLeafCount(t.root, k);
    len := 0;
    var n := t.root;
    while !n.Leaf?
      invariant len <= k
      invariant Perfect(n, k - len)
      decreases k - len
    {
      n := n.left;
      len := len + 1;
    }
  }
}

=== FILE: merkle_diff.dfy ===
/**
  Pairwise comparison of two Merkle trees.

  Both roots are walked together. Two differing leaves mark an invalid
  index; a leaf paired with an internal node is a structural mismatch
  (IllegalArgumentException); two internal nodes with equal digests are
  taken as equal subtrees and not descended into.

  `findInvalidDataIndicesRecursive` records, for a differing leaf, the
  index that a search of the whole tree for that leaf's digest returns: the
  FIRST leaf with that digest. When digests repeat (duplicate data, or
  several padding leaves) that is not the position that differs.
  `FindInvalidAsWritten` keeps that behaviour and `ValidateTree` is built on
  it, as `validateTree` is; `FindInvalidFrom` records the leaf's own
  position. The two agree on emptiness, so validation means the same for
  both.
*/
module MerkleDiff {
  import opened Wrappers
  import opened Sequences
  import opened MerkleNodes
  import opened MerkleBuild

  /** Leaves are paired with leaves and internal nodes with internal nodes, all the way down. */
  predicate SameShape(a: Node, b: Node) {
    if a.Leaf? && b.Leaf? then true
    else if a.Internal? && b.Internal? then SameShape(a.left, b.left) && SameShape(a.right, b.right)
    else false
  }

  /** Leaf `i` of `a` and leaf `i` of `b` both exist and differ. */
  ghost predicate Differs(a: Node, b: Node, i: int) {
    0 <= i < |Leaves(a)| && i < |Leaves(b)| && Leaves(a)[i] != Leaves(b)[i]
  }

  /** Corresponding subtrees with different leaves have different digests:
      no digest collision is met while walking the two trees. */
  ghost predicate Separating(a: Node, b: Node) {
    && (Leaves(a) != Leaves(b) ==> a.hash != b.hash)
    && (a.Internal? && b.Internal? ==> Separating(a.left, b.left) && Separating(a.right, b.right))
  }

  /** Results of the two recursive calls: the left call's exception wins,
      then the right call's, otherwise the indices are collected together. */
  function Join(x: Result<set<int>>, y: Result<set<int>>): Result<set<int>> {
    if x.Err? then x else if y.Err? then y else Ok(x.value + y.value)
  }

  /** The comparison with each differing leaf recorded at its own position;
      `offset` is the position of the leftmost leaf of `node`. */
  function FindInvalidFrom(node: Node, other: Node, offset: int): (r: Result<set<int>>)
    ensures node.Leaf? != other.Leaf? ==> r.Err?
    ensures SameShape(node, other) ==> r.Ok?
    ensures r.Err? ==> r.error == IllegalArgument
    ensures r.Ok? ==> forall p :: p in r.value ==> offset <= p < offset + |Leaves(node)|
  {
    if node.Leaf? && other.Leaf? && node.hash != other.hash then Ok({offset})
    else if node.Leaf? != other.Leaf? then Err(IllegalArgument)
    else if node.hash != other.hash then
      Join(FindInvalidFrom(node.left, other.left, offset),
           FindInvalidFrom(node.right, other.right, offset + |Leaves(node.left)|))
    else Ok({})
  }

  /** `findInvalidDataIndicesRecursive` as written: a differing leaf is
      recorded as the first index of its digest among the leaves of `root`. */
  function FindInvalidAsWritten(root: Node, node: Node, other: Node): (r: Result<set<int>>)
    ensures node.Leaf? != other.Leaf? ==> r.Err?
    ensures SameShape(node, other) ==> r.Ok?
    ensures r.Err? ==> r.error == IllegalArgument
    ensures r.Ok? ==> forall p :: p in r.value ==> -1 <= p < |Leaves(root)|
  {
    if node.Leaf? && other.Leaf? && node.hash != other.hash then Ok({FirstIndex(Leaves(root), node.hash)})
    else if node.Leaf? != other.Leaf? then Err(IllegalArgument)
    else if node.hash != other.hash then
      Join(FindInvalidAsWritten(root, node.left, other.left),
           FindInvalidAsWritten(root, node.right, other.right))
    else Ok({})
  }

  function FindInvalidDataIndices(t: MerkleTree, other: MerkleTree): Result<set<int>> {
    FindInvalidFrom(t.root, other.root, 0)
  }

  function FindInvalidDataIndicesAsWritten(t: MerkleTree, other: MerkleTree): Result<set<int>> {
    FindInvalidAsWritten(t.root, t.root, other.root)
  }

  /** True when the comparison finds no invalid index; a structural
      mismatch is caught and reported as false. Validation holds exactly
      when the corrected diff is empty. */
  function ValidateTree(t: MerkleTree, other: MerkleTree): (r: bool)
    ensures r <==> FindInvalidDataIndices(t, other) == Ok({})
  {
    AsWrittenSameValidation(t, other);
    match FindInvalidDataIndicesAsWritten(t, other)
    case Ok(s) => s == {}
    case Err(_) => false
  }

  lemma {:induction false} SameShapeLeafCount(a: Node, b: Node)
    requires SameShape(a, b)
    ensures |Leaves(a)| == |Leaves(b)|
  {
    if a.Internal? {
      SameShapeLeafCount(a.left, b.left);
      SameShapeLeafCount(a.right, b.right);
    }
  }

  lemma {:induction false} PerfectSameShape(a: Node, b: Node, k: nat)
    requires Perfect(a, k) && Perfect(b, k)
    ensures SameShape(a, b)
  {
    if k > 0 {
      PerfectSameShape(a.left, b.left, k - 1);
      PerfectSameShape(a.right, b.right, k - 1);
    }
  }

  /** A leaf difference of a same-shaped pair is one of the left pair's,
      or one of the right pair's shifted by the left leaf count. */
  lemma DiffersSplit(a: Node, b: Node, i: int)
    requires a.Internal? && b.Internal? && SameShape(a, b)
    ensures Differs(a, b, i) <==>
      if i < |Leaves(a.left)| then Differs(a.left, b.left, i)
      else Differs(a.right, b.right, i - |Leaves(a.left)|)
  {
    SameShapeLeafCount(a.left, b.left);
    SameShapeLeafCount(a.right, b.right);
    if 0 <= i < |Leaves(a.left)| {
      assert Leaves(a)[i] == Leaves(a.left)[i];
      assert Leaves(b)[i] == Leaves(b.left)[i];
    } else if |Leaves(a.left)| <= i < |Leaves(a)| {
      assert Leaves(a)[i] == Leaves(a.right)[i - |Leaves(a.left)|];
      assert Leaves(b)[i] == Leaves(b.right)[i - |Leaves(a.left)|];
    }
  }

  /** Every recorded index is a position where the leaves differ. */
  lemma {:induction false} DiffSound(a: Node, b: Node, offset: int)
    requires SameShape(a, b)
    ensures forall p :: p in FindInvalidFrom(a, b, offset).value ==> Differs(a, b, p - offset)
  {
    if a.Internal? && a.hash != b.hash {
      var n := |Leaves(a.left)|;
      var l := FindInvalidFrom(a.left, b.left, offset);
      var r := FindInvalidFrom(a.right, b.right, offset + n);
      assert FindInvalidFrom(a, b, offset).value == l.value + r.value;
      DiffSound(a.left, b.left, offset);
      DiffSound(a.right, b.right, offset + n);
      forall p | p in l.value + r.value
        ensures Differs(a, b, p - offset)
      {
        DiffersSplit(a, b, p - offset);
        if p in l.value {
          assert Differs(a.left, b.left, p - offset);
        } else {
          assert (p - offset) - n == p - (offset + n);
          assert Differs(a.right, b.right, p - (offset + n));
        }
      }
    }
  }

  /** Without digest collisions, every differing position is recorded. */
  lemma {:induction false} DiffComplete(a: Node, b: Node, offset: int)
    requires SameShape(a, b) && Separating(a, b)
    ensures forall i :: Differs(a, b, i) ==> offset + i in FindInvalidFrom(a, b, offset).value
  {
    SameShapeLeafCount(a, b);
    if a.Internal? && a.hash != b.hash {
      var n := |Leaves(a.left)|;
      DiffComplete(a.left, b.left, offset);
      DiffComplete(a.right, b.right, offset + n);
      forall i | Differs(a, b, i)
        ensures offset + i in FindInvalidFrom(a, b, offset).value
      {
        DiffersSplit(a, b, i);
        if i >= n {
          assert offset + i == (offset + n) + (i - n);
        }
      }
    }
  }

  /** The positions where the leaves of two same-shaped trees differ. */
  ghost function DiffPositions(a: Node, b: Node): set<int> {
    set i | 0 <= i < |Leaves(a)| && Differs(a, b, i)
  }

  /** For same-shaped trees without digest collisions, the comparison
      returns exactly the differing positions. */
  lemma DiffExact(t: MerkleTree, other: MerkleTree)
    requires SameShape(t.root, other.root) && Separating(t.root, other.root)
    ensures FindInvalidDataIndices(t, other) == Ok(DiffPositions(t.root, other.root))
  {
    var s := FindInvalidDataIndices(t, other).value;
    DiffSound(t.root, other.root, 0);
    DiffComplete(t.root, other.root, 0);
    forall p | p in s
      ensures p in DiffPositions(t.root, other.root)
    {
      assert Differs(t.root, other.root, p - 0);
    }
    forall i | i in DiffPositions(t.root, other.root)
      ensures i in s
    {
      assert 0 + i in s;
    }
    assert s == DiffPositions(t.root, other.root);
  }

  /** Trees of the same height over the same leaf digests validate: in
      particular a tree validates against a rebuild over the same list. */
  lemma ValidateTreeOnSameLeaves(t: MerkleTree, other: MerkleTree, k: nat)
    requires Perfect(t.root, k) && Perfect(other.root, k)
    requires Leaves(t.root) == Leaves(other.root)
    ensures ValidateTree(t, other)
  {
    PerfectSameShape(t.root, other.root, k);
    DiffSound(t.root, other.root, 0);
    var s := FindInvalidDataIndices(t, other).value;
    if p :| p in s {
      assert false;
    }
    assert s == {};
  }

  /** For same-height trees without digest collisions, validation succeeds
      exactly when the leaf digests are the same. */
  lemma ValidateTreeIffSameLeaves(t: MerkleTree, other: MerkleTree, k: nat)
    requires Perfect(t.root, k) && Perfect(other.root, k)
    requires Separating(t.root, other.root)
    ensures ValidateTree(t, other) <==> Leaves(t.root) == Leaves(other.root)
  {
    PerfectSameShape(t.root, other.root, k);
    SameShapeLeafCount(t.root, other.root);
    DiffExact(t, other);
    if Leaves(t.root) != Leaves(other.root) {
      var a := Leaves(t.root);
      var b := Leaves(other.root);
      var i :| 0 <= i < |a| && a[i] != b[i];
      assert i in DiffPositions(t.root, other.root);
    } else {
      ValidateTreeOnSameLeaves(t, other, k);
    }
  }

  /** Changing the single leaf `i` is reported as exactly `{i}`. */
  lemma TamperedLeafReported(t: MerkleTree, other: MerkleTree, k: nat, i: nat)
    requires Perfect(t.root, k) && Perfect(other.root, k)
    requires Separating(t.root, other.root)
    requires Differs(t.root, other.root, i)
    requires forall j :: 0 <= j < |Leaves(t.root)| && j != i ==> !Differs(t.root, other.root, j)
    ensures FindInvalidDataIndices(t, other) == Ok({i})
  {
    PerfectSameShape(t.root, other.root, k);
    SameShapeLeafCount(t.root, other.root);
    DiffExact(t, other);
    assert DiffPositions(t.root, other.root) == {i};
  }

  /** Paired internal nodes down the two left spines have different digests.
      The comparison walks exactly these pairs before a leaf meets an
      internal node; in a built tree the leftmost leaf is a real digest, so
      no spine node carries padding and this is the absence of a collision
      of `H` along the spines. */
  ghost predicate LeftSpineDistinct(a: Node, b: Node) {
    a.Internal? && b.Internal? ==> a.hash != b.hash && LeftSpineDistinct(a.left, b.left)
  }

  /** Trees of different heights, compared without a digest collision along
      the left spines, always hit a leaf paired with an internal node. */
  lemma {:induction false} DifferentHeightsMismatch(a: Node, b: Node, ka: nat, kb: nat, offset: int)
    requires Perfect(a, ka) && Perfect(b, kb) && ka != kb
    requires LeftSpineDistinct(a, b)
    ensures FindInvalidFrom(a, b, offset).Err?
  {
    if ka > 0 && kb > 0 {
      DifferentHeightsMismatch(a.left, b.left, ka - 1, kb - 1, offset);
    }
  }

  /** Validation of trees of different heights is false. */
  lemma ValidateTreeDifferentHeights(t: MerkleTree, other: MerkleTree, ka: nat, kb: nat)
    requires Perfect(t.root, ka) && Perfect(other.root, kb) && ka != kb
    requires LeftSpineDistinct(t.root, other.root)
    ensures FindInvalidDataIndices(t, other).Err?
    ensures FindInvalidDataIndicesAsWritten(t, other).Err?
    ensures !ValidateTree(t, other)
  {
    DifferentHeightsMismatch(t.root, other.root, ka, kb, 0);
    var L := Leaves(t.root);
    assert L[0..|L|] == L;
    AsWrittenIsFirstOccurrences(t.root, t.root, other.root, 0);
  }

  /** Any pair of trees without a digest collision has distinct left spines
      once the heights differ, so the two hypotheses agree there. */
  lemma {:induction false} SeparatingGivesLeftSpine(a: Node, b: Node, ka: nat, kb: nat)
    requires Perfect(a, ka) && Perfect(b, kb) && ka != kb
    requires Separating(a, b)
    ensures LeftSpineDistinct(a, b)
  {
    if ka > 0 && kb > 0 {
      PerfectLeafCount(a, ka);
      PerfectLeafCount(b, kb);
      if ka < kb { Pow2Strict(ka, kb); } else { Pow2Strict(kb, ka); }
      SeparatingGivesLeftSpine(a.left, b.left, ka - 1, kb - 1);
    }
  }

  /** The indices `findInvalidDataIndicesRecursive` reports for positions `s` of `L`: the first occurrence of each one's digest. */
  ghost function FirstOccurrences(L: seq<string>, s: set<int>): set<int> {
    set p | p in s && 0 <= p < |L| :: FirstIndex(L, L[p])
  }

  /** The leaves of the children of `node` sit side by side where `node`'s leaves sit. */
  lemma ChildSlices(L: seq<string>, node: Node, offset: nat)
    requires node.Internal?
    requires offset + |Leaves(node)| <= |L|
    requires L[offset..offset + |Leaves(node)|] == Leaves(node)
    ensures offset + |Leaves(node.left)| + |Leaves(node.right)| <= |L|
    ensures L[offset..offset + |Leaves(node.left)|] == Leaves(node.left)
    ensures L[offset + |Leaves(node.left)|..offset + |Leaves(node.left)| + |Leaves(node.right)|] == Leaves(node.right)
  {
    SliceSplit(L, offset, Leaves(node.left), Leaves(node.right));
  }

  lemma FirstOccurrencesEmpty(L: seq<string>)
    ensures FirstOccurrences(L, {}) == {}
  {
  }

  /** The result `w` of `findInvalidDataIndicesRecursive` as written is the
      corrected result `c` with every position replaced by the first
      position in `L` holding the same digest; both fail together. */
  ghost predicate Misreports(L: seq<string>, w: Result<set<int>>, c: Result<set<int>>) {
    && (w.Err? <==> c.Err?)
    && (w.Ok? ==> w.value == FirstOccurrences(L, c.value))
  }

  lemma LeafMisreported(L: seq<string>, node: Node, other: Node, offset: nat)
    requires node.Leaf? && other.Leaf? && node.hash != other.hash
    requires offset < |L| && L[offset] == node.hash
    ensures Misreports(L, Ok({FirstIndex(L, node.hash)}), FindInvalidFrom(node, other, offset))
  {
  }

  lemma InternalMisreported(root: Node, node: Node, other: Node, offset: nat)
    requires node.Internal? && other.Internal? && node.hash != other.hash
    requires Misreports(Leaves(root), FindInvalidAsWritten(root, node.left, other.left),
                        FindInvalidFrom(node.left, other.left, offset))
    requires Misreports(Leaves(root), FindInvalidAsWritten(root, node.right, other.right),
                        FindInvalidFrom(node.right, other.right, offset + |Leaves(node.left)|))
    ensures Misreports(Leaves(root), FindInvalidAsWritten(root, node, other), FindInvalidFrom(node, other, offset))
  {
  }

  /** A differing leaf is reported at the first leaf of `root` with its digest. */
  lemma LeafAsWritten(root: Node, node: Node, other: Node, offset: nat)
    requires node.Leaf? && other.Leaf? && node.hash != other.hash
    requires offset + |Leaves(node)| <= |Leaves(root)|
    requires Leaves(root)[offset..offset + |Leaves(node)|] == Leaves(node)
    ensures Misreports(Leaves(root), FindInvalidAsWritten(root, node, other), FindInvalidFrom(node, other, offset))
  {
    var L := Leaves(root);
    assert L[offset] == L[offset..offset + 1][0];
    LeafMisreported(L, node, other, offset);
  }

  /** Equal digests and mismatched shapes are treated alike by both versions. */
  lemma NoDiffMisreported(root: Node, node: Node, other: Node, offset: nat)
    requires !(node.Leaf? == other.Leaf? && node.hash != other.hash)
    ensures Misreports(Leaves(root), FindInvalidAsWritten(root, node, other), FindInvalidFrom(node, other, offset))
  {
    FirstOccurrencesEmpty(Leaves(root));
  }

  /** The result of `findInvalidDataIndicesRecursive` as written is the
      corrected one with every position replaced by the first leaf holding
      the same digest. `node` is the subtree of `root` whose leaves start
      at `offset`. */
  lemma {:induction false} AsWrittenIsFirstOccurrences(root: Node, node: Node, other: Node, offset: nat)
    requires offset + |Leaves(node)| <= |Leaves(root)|
    requires Leaves(root)[offset..offset + |Leaves(node)|] == Leaves(node)
    ensures Misreports(Leaves(root), FindInvalidAsWritten(root, node, other), FindInvalidFrom(node, other, offset))
  {
    if node.Leaf? && other.Leaf? && node.hash != other.hash {
      LeafAsWritten(root, node, other, offset);
    } else if node.Leaf? == other.Leaf? && node.hash != other.hash {
      ChildSlices(Leaves(root), node, offset);
      AsWrittenIsFirstOccurrences(root, node.left, other.left, offset);
      AsWrittenIsFirstOccurrences(root, node.right, other.right, offset + |Leaves(node.left)|);
      InternalMisreported(root, node, other, offset);
    } else {
      NoDiffMisreported(root, node, other, offset);
    }
  }

  /** When no two leaves share a digest, `findInvalidDataIndicesRecursive` as written gives the corrected result. */
  lemma AsWrittenCorrectWithoutDuplicates(t: MerkleTree, other: MerkleTree)
    requires NoDuplicates(Leaves(t.root))
    ensures FindInvalidDataIndicesAsWritten(t, other) == FindInvalidDataIndices(t, other)
  {
    var L := Leaves(t.root);
    assert L[0..|L|] == L;
    AsWrittenIsFirstOccurrences(t.root, t.root, other.root, 0);
    var c := FindInvalidDataIndices(t, other);
    if c.Ok? {
      forall p | p in c.value
        ensures FirstIndex(L, L[p]) == p
      {
        FirstIndexOfDistinct(L, p);
      }
      assert FirstOccurrences(L, c.value) == c.value;
    }
  }

  /** Both versions agree on whether the result is empty, so validation is
      unaffected by the misreported indices. */
  lemma AsWrittenSameValidation(t: MerkleTree, other: MerkleTree)
    ensures FindInvalidDataIndicesAsWritten(t, other) == Ok({}) <==> FindInvalidDataIndices(t, other) == Ok({})
  {
    var L := Leaves(t.root);
    assert L[0..|L|] == L;
    AsWrittenIsFirstOccurrences(t.root, t.root, other.root, 0);
    var c := FindInvalidDataIndices(t, other);
    if c.Ok? && c.value != {} {
      var p :| p in c.value;
      assert FirstIndex(L, L[p]) in FirstOccurrences(L, c.value);
    } else if c.Ok? {
      assert FirstOccurrences(L, {}) == {};
    }
  }

  /** A stand-in digest for the examples below; any digest works the same way. */
  function Tag(s: string): string {
    "#" + s
  }

  function Join2(H: string -> string, l: Node, r: Node): Node {
    Internal(ParentHash(H, l.hash, r.hash), l, r)
  }

  /** Duplicate data: the trees built over ["x", "x"] and ["x", "y"] differ
      at index 1, but `findInvalidDataIndicesRecursive` reports index 0, the first leaf with digest "x". */
  lemma DuplicateDataMisreported()
    ensures BuiltFrom(MerkleTree(Join2(Tag, Leaf("x"), Leaf("x")), 2), Tag, ["x", "x"])
    ensures BuiltFrom(MerkleTree(Join2(Tag, Leaf("x"), Leaf("y")), 2), Tag, ["x", "y"])
    ensures FindInvalidDataIndicesAsWritten(MerkleTree(Join2(Tag, Leaf("x"), Leaf("x")), 2),
                                            MerkleTree(Join2(Tag, Leaf("x"), Leaf("y")), 2)) == Ok({0})
    ensures FindInvalidDataIndices(MerkleTree(Join2(Tag, Leaf("x"), Leaf("x")), 2),
                                   MerkleTree(Join2(Tag, Leaf("x"), Leaf("y")), 2)) == Ok({1})
  {
    var a := Join2(Tag, Leaf("x"), Leaf("x"));
    var b := Join2(Tag, Leaf("x"), Leaf("y"));
    assert CeilLog2(2) == 1;
    assert Leaves(a) == ["x", "x"] + Pads(0);
    assert Leaves(b) == ["x", "y"] + Pads(0);
    assert a.hash != b.hash by {
      assert a.hash[2] == 'x' && b.hash[2] == 'y';
    }
    assert FirstIndex(Leaves(a), "x") == 0;
    assert FindInvalidAsWritten(a, a.left, b.left) == Ok({});
    assert FindInvalidAsWritten(a, a.right, b.right) == Ok({0});
    assert FindInvalidFrom(a.left, b.left, 0) == Ok({});
    assert FindInvalidFrom(a.right, b.right, 1) == Ok({1});
    assert {} + {0} == {0} && {} + {1} == {1};
  }

  /** Pairs two perfect, consistent subtrees of height `k` under a new parent. */
  lemma JoinRaises(H: string -> string, l: Node, r: Node, k: nat)
    requires Perfect(l, k) && Perfect(r, k) && Consistent(l, H) && Consistent(r, H)
    ensures Perfect(Join2(H, l, r), k + 1) && Consistent(Join2(H, l, r), H)
    ensures Leaves(Join2(H, l, r)) == Leaves(l) + Leaves(r)
  {
  }

  /** The shared left half of the two trees below: the leaves "a" to "d". */
  const FourLeaves: Node := Join2(Tag, Join2(Tag, Leaf("a"), Leaf("b")), Join2(Tag, Leaf("c"), Leaf("d")))

  /** The tree over five digests: the right half holds "e" and three padding leaves. */
  const FiveTree: Node :=
    Join2(Tag, FourLeaves, Join2(Tag, Join2(Tag, Leaf("e"), Leaf(Padding)), Join2(Tag, Leaf(Padding), Leaf(Padding))))

  /** The tree over seven digests: the right half holds "e" to "g" and one padding leaf. */
  const SevenTree: Node :=
    Join2(Tag, FourLeaves, Join2(Tag, Join2(Tag, Leaf("e"), Leaf("f")), Join2(Tag, Leaf("g"), Leaf(Padding))))

  lemma CeilLog2FiveSeven()
    ensures CeilLog2(5) == 3 && CeilLog2(7) == 3
  {
  }

  lemma FourLeavesBuilt()
    ensures Perfect(FourLeaves, 2) && Consistent(FourLeaves, Tag)
    ensures Leaves(FourLeaves) == ["a", "b", "c", "d"]
  {
    JoinRaises(Tag, Leaf("a"), Leaf("b"), 0);
    JoinRaises(Tag, Leaf("c"), Leaf("d"), 0);
    JoinRaises(Tag, Join2(Tag, Leaf("a"), Leaf("b")), Join2(Tag, Leaf("c"), Leaf("d")), 1);
  }

  lemma FiveBuilt()
    ensures BuiltFrom(MerkleTree(FiveTree, 5), Tag, ["a", "b", "c", "d", "e"])
  {
    CeilLog2FiveSeven();
    FourLeavesBuilt();
    assert Pow2(3) == 8;
    var e0 := Join2(Tag, Leaf("e"), Leaf(Padding));
    var p0 := Join2(Tag, Leaf(Padding), Leaf(Padding));
    JoinRaises(Tag, Leaf("e"), Leaf(Padding), 0);
    JoinRaises(Tag, Leaf(Padding), Leaf(Padding), 0);
    JoinRaises(Tag, e0, p0, 1);
    JoinRaises(Tag, FourLeaves, Join2(Tag, e0, p0), 2);
    assert Leaves(FiveTree) == ["a", "b", "c", "d", "e"] + Pads(3);
  }

  lemma SevenBuilt()
    ensures BuiltFrom(MerkleTree(SevenTree, 7), Tag, ["a", "b", "c", "d", "e", "f", "g"])
  {
    CeilLog2FiveSeven();
    FourLeavesBuilt();
    assert Pow2(3) == 8;
    var ef := Join2(Tag, Leaf("e"), Leaf("f"));
    var g0 := Join2(Tag, Leaf("g"), Leaf(Padding));
    JoinRaises(Tag, Leaf("e"), Leaf("f"), 0);
    JoinRaises(Tag, Leaf("g"), Leaf(Padding), 0);
    JoinRaises(Tag, ef, g0, 1);
    JoinRaises(Tag, FourLeaves, Join2(Tag, ef, g0), 2);
    assert Leaves(SevenTree) == ["a", "b", "c", "d", "e", "f", "g"] + Pads(1);
  }

  /** The two trees of the padding example are what construction produces. */
  lemma FiveAndSevenBuilt()
    ensures BuiltFrom(MerkleTree(FiveTree, 5), Tag, ["a", "b", "c", "d", "e"])
    ensures BuiltFrom(MerkleTree(SevenTree, 7), Tag, ["a", "b", "c", "d", "e", "f", "g"])
  {
    FiveBuilt();
    SevenBuilt();
  }

  lemma FirstPaddingOfFive()
    ensures FirstIndex(Leaves(FiveTree), Padding) == 5
  {
    FiveBuilt();
    var L := Leaves(FiveTree);
    assert L == ["a", "b", "c", "d", "e", Padding, Padding, Padding];
    assert Padding !in L[..5] by {
      assert L[..5] == ["a", "b", "c", "d", "e"];
    }
    FirstIndexAt(L, Padding, 5);
  }

  /** The right halves of the five- and seven-item trees, as `findInvalidDataIndicesRecursive` scans them. */
  lemma FiveSevenRightAsWritten()
    ensures FindInvalidAsWritten(FiveTree, FiveTree.right, SevenTree.right) == Ok({5})
  {
    FirstPaddingOfFive();
    var x, y := FiveTree.right, SevenTree.right;
    assert |x.left.hash| == 2 && |y.left.hash| == 3;
    assert x.right.hash == Padding && |y.right.hash| == 2;
    assert FindInvalidAsWritten(FiveTree, x.left, y.left) == Ok({} + {5});
    assert FindInvalidAsWritten(FiveTree, x.right, y.right) == Ok({5} + {});
    assert ({} + {5}) + ({5} + {}) == {5};
  }

  /** The right halves of the five- and seven-item trees, leaf by leaf. */
  lemma FiveSevenRightCorrected()
    ensures FindInvalidFrom(FiveTree.right, SevenTree.right, 4) == Ok({5, 6})
  {
    var x, y := FiveTree.right, SevenTree.right;
    assert |x.left.hash| == 2 && |y.left.hash| == 3;
    assert x.right.hash == Padding && |y.right.hash| == 2;
    assert FindInvalidFrom(x.left, y.left, 4) == Ok({} + {5});
    assert FindInvalidFrom(x.right, y.right, 6) == Ok({6} + {});
    assert ({} + {5}) + ({6} + {}) == {5, 6};
  }

  /** Padding: appending two items to a five-item list changes leaves 5 and
      6, both padding leaves before; the code as written reports only index 5, the
      first padding leaf, for both. */
  lemma PaddingMisreported()
    ensures FindInvalidDataIndicesAsWritten(MerkleTree(FiveTree, 5), MerkleTree(SevenTree, 7)) == Ok({5})
    ensures FindInvalidDataIndices(MerkleTree(FiveTree, 5), MerkleTree(SevenTree, 7)) == Ok({5, 6})
  {
    FourLeavesBuilt();
    FiveSevenRightAsWritten();
    FiveSevenRightCorrected();
    assert |FiveTree.right.hash| == 3 && |SevenTree.right.hash| == 6;
    assert |FiveTree.hash| != |SevenTree.hash|;
    assert {} + {5} == {5} && {} + {5, 6} == {5, 6};
    assert FindInvalidAsWritten(FiveTree, FiveTree, SevenTree) == Join(Ok({}), Ok({5}));
    assert FindInvalidFrom(FiveTree, SevenTree, 0) == Join(Ok({}), Ok({5, 6}));
  }
}

=== FILE: merkle_node.dfy ===
/**
  Nodes of a Merkle tree and the structural facts every query relies on.

  A node is a leaf carrying a digest or an internal node carrying a digest
  and two children. The empty string is the padding sentinel. `H` is the
  digest of a byte string (`HashUtil.computeMD5` applied to the bytes of a
  string) and is a parameter of every definition that needs it.
*/
module MerkleNodes {

  /** The digest of padding leaves, and of every parent of two padding children. */
  const Padding: string := ""

  datatype Node =
    | Leaf(hash: string)
    | Internal(hash: string, left: Node, right: Node)

  /** The root node and the number of real (non-padding) leaves. */
  datatype MerkleTree = MerkleTree(root: Node, width: nat)

  /** The digest a parent receives from its children's digests: padding
      only for two padding children, as long as `H` never yields padding. */
  function ParentHash(H: string -> string, l: string, r: string): (h: string)
    ensures l == Padding && r == Padding ==> h == Padding
    ensures NeverPadding(H) ==> (h == Padding <==> l == Padding && r == Padding)
  {
    if l == Padding && r == Padding then Padding else H(l + r)
  }

  /** Every internal node carries the digest derived from its children. */
  predicate Consistent(n: Node, H: string -> string) {
    match n
    case Leaf(_) => true
    case Internal(h, l, r) => h == ParentHash(H, l.hash, r.hash) && Consistent(l, H) && Consistent(r, H)
  }

  /** A perfect binary tree: every leaf lies exactly `k` edges below `n`. */
  predicate Perfect(n: Node, k: nat) {
    match n
    case Leaf(_) => k == 0
    case Internal(_, l, r) => k > 0 && Perfect(l, k - 1) && Perfect(r, k - 1)
  }

  /** The digest `H` never produces the padding sentinel (an MD5 hex string
      always has 32 characters). */
  ghost predicate NeverPadding(H: string -> string) {
    forall s :: H(s) != Padding
  }

  function Pow2(k: nat): (p: nat)
    ensures p >= 1
  {
    if k == 0 then 1 else 2 * Pow2(k - 1)
  }

  lemma {:induction false} Pow2Strict(i: nat, j: nat)
    requires i < j
    ensures Pow2(i) < Pow2(j)
    decreases j
  {
    if i < j - 1 {
      Pow2Strict(i, j - 1);
    }
  }

  /** `m` padding digests. */
  function Pads(m: nat): seq<string> {
    seq(m, _ => Padding)
  }

  /** The digests of the leaves under `n`, left to right. */
  function Leaves(n: Node): seq<string> {
    match n
    case Leaf(h) => [h]
    case Internal(_, l, r) => Leaves(l) + Leaves(r)
  }

  /** The leaf digests of a row of nodes, left to right. */
  function LeavesOf(ns: seq<Node>): seq<string> {
    if |ns| == 0 then [] else Leaves(ns[0]) + LeavesOf(ns[1..])
  }

  /** All nodes under `n` in pre-order: a node, then its left subtree, then its right subtree. */
  function Subtrees(n: Node): seq<Node> {
    match n
    case Leaf(_) => [n]
    case Internal(_, l, r) => [n] + Subtrees(l) + Subtrees(r)
  }

  /** Some node under `n` (including `n`) carries digest `h`. */
  ghost predicate HasNodeWithHash(n: Node, h: string) {
    exists m :: m in Subtrees(n) && m.hash == h
  }

  /** A perfect tree of height `k` has 2^k leaves. */
  lemma {:induction false} PerfectLeafCount(n: Node, k: nat)
    requires Perfect(n, k)
    ensures |Leaves(n)| == Pow2(k)
  {
    if n.Internal? {
      PerfectLeafCount(n.left, k - 1);
      PerfectLeafCount(n.right, k - 1);
    }
  }

  lemma {:induction false} LeavesOfAppend(a: seq<Node>, b: seq<Node>)
    ensures LeavesOf(a + b) == LeavesOf(a) + LeavesOf(b)
    decreases |a|
  {
    if |a| > 0 {
      assert (a + b)[1..] == a[1..] + b;
      LeavesOfAppend(a[1..], b);
    } else {
      assert a + b == b;
    }
  }

  /** A node whose digest is the sentinel has only padding below it: with a
      digest that never yields the sentinel, the only way to get it is from
      two padding children. */
  lemma {:induction false} PaddingPropagatesDown(n: Node, H: string -> string)
    requires Consistent(n, H) && NeverPadding(H)
    requires n.hash == Padding
    ensures forall m :: m in Subtrees(n) ==> m.hash == Padding
  {
    if n.Internal? {
      assert n.left.hash == Padding && n.right.hash == Padding;
      PaddingPropagatesDown(n.left, H);
      PaddingPropagatesDown(n.right, H);
    }
  }

  /** Two consistent perfect trees of the same height with the same leaves are
      the same tree: construction is determined by the leaf digests alone. */
  lemma {:induction false} SameLeavesSameTree(a: Node, b: Node, k: nat, H: string -> string)
    requires Perfect(a, k) && Perfect(b, k)
    requires Consistent(a, H) && Consistent(b, H)
    requires Leaves(a) == Leaves(b)
    ensures a == b
  {
    if k > 0 {
      PerfectLeafCount(a.left, k - 1);
      PerfectLeafCount(b.left, k - 1);
      var n := Pow2(k - 1);
      assert Leaves(a.left) == Leaves(a)[..n] == Leaves(b)[..n] == Leaves(b.left);
      assert Leaves(a.right) == Leaves(a)[n..] == Leaves(b)[n..] == Leaves(b.right);
      SameLeavesSameTree(a.left, b.left, k - 1, H);
      SameLeavesSameTree(a.right, b.right, k - 1, H);
    }
  }
}

=== FILE: merkle_proof.dfy ===
/**
  Paths to descendants and Merkle proofs.

  A proof lists, from the target's parent up to the root, the digest of the
  sibling of each node on the path together with a flag that is true when
  that sibling is the LEFT child. Folding the digest primitive along the
  entries, starting from the target's digest, recomputes the root digest.
*/
module MerkleProofs {
  import opened Wrappers
  import opened MerkleNodes

  /** One proof step: the sibling's digest and whether the sibling is the left child. */
  datatype ProofEntry = ProofEntry(sibling: string, siblingIsLeft: bool)

  /** The digest the proof resolves to, the number of steps, and the steps. */
  datatype MerkleProof = MerkleProof(rootHash: string, length: int, entries: seq<ProofEntry>)

  /** Each node of `path` after the first is a child of the one before it. */
  predicate IsChain(path: seq<Node>) {
    forall i :: 0 <= i < |path| - 1 ==>
      path[i].Internal? && (path[i + 1] == path[i].left || path[i + 1] == path[i].right)
  }

  /** `p` leads from `start` down a chain of children to a node with digest
      `hash`, passing no earlier node with that digest. */
  ghost predicate PathTo(p: seq<Node>, start: Node, hash: string) {
    && |p| >= 1
    && p[0] == start
    && IsChain(p)
    && p[|p| - 1].hash == hash
    && forall i :: 0 <= i < |p| - 1 ==> p[i].hash != hash
  }

  /** A path from a child extends to a path from its parent. */
  lemma ExtendPath(node: Node, child: Node, p: seq<Node>, hash: string)
    requires node.Internal? && (child == node.left || child == node.right)
    requires node.hash != hash
    requires PathTo(p, child, hash)
    ensures PathTo([node] + p, node, hash)
  {
    assert ([node] + p)[1..] == p;
  }

  /** A node with the digest lies at the root or in one of the subtrees. */
  lemma HasNodeSplit(node: Node, hash: string)
    ensures HasNodeWithHash(node, hash) <==>
      node.hash == hash || (node.Internal? && (HasNodeWithHash(node.left, hash) || HasNodeWithHash(node.right, hash)))
  {
    assert node in Subtrees(node);
    if node.Internal? {
      assert Subtrees(node) == [node] + Subtrees(node.left) + Subtrees(node.right);
    }
  }

  /** The recursive search behind `PathToDescendant`: the node itself when it
      carries the digest, otherwise the node followed by the path found in
      the left subtree or, failing that, in the right one. */
  function PathSearch(node: Node, hash: string): Option<seq<Node>> {
    if node.hash == hash then Some([node])
    else if node.Leaf? then None
    else
      var left := PathSearch(node.left, hash);
      var right := PathSearch(node.right, hash);
      if left.Some? then Some([node] + left.value)
      else if right.Some? then Some([node] + right.value)
      else None
  }

  /** The search finds a path exactly when some node carries the digest. */
  lemma {:induction false} PathSearchFinds(node: Node, hash: string)
    ensures PathSearch(node, hash).Some? <==> HasNodeWithHash(node, hash)
    ensures PathSearch(node, hash).Some? ==> PathTo(PathSearch(node, hash).value, node, hash)
  {
    HasNodeSplit(node, hash);
    if node.hash != hash && node.Internal? {
      PathSearchFinds(node.left, hash);
      PathSearchFinds(node.right, hash);
      var left := PathSearch(node.left, hash);
      var right := PathSearch(node.right, hash);
      if left.Some? {
        ExtendPath(node, node.left, left.value, hash);
      } else if right.Some? {
        ExtendPath(node, node.right, right.value, hash);
      }
    }
  }

  /** The path from `node` down to the first node, in pre-order, whose digest
      is `hash`; both subtrees are searched and the left one's path wins. */
  function PathToDescendant(node: Node, hash: string): (p: Option<seq<Node>>)
    ensures p.Some? <==> HasNodeWithHash(node, hash)
    ensures p.Some? ==> PathTo(p.value, node, hash)
  {
    PathSearchFinds(node, hash);
    PathSearch(node, hash)
  }

  /** The path prefers the left subtree: if it holds the digest, the path's
      second node is the left child. */
  lemma LeftSubtreePreferred(node: Node, hash: string)
    requires node.Internal? && node.hash != hash
    requires HasNodeWithHash(node.left, hash)
    ensures PathToDescendant(node, hash).Some?
    ensures PathToDescendant(node, hash).value[1] == node.left
  {
    PathSearchFinds(node.left, hash);
  }

  /** `s[i]` is `x` and no node before it carries `hash`. */
  ghost predicate FirstWithHashAt(s: seq<Node>, i: int, x: Node, hash: string) {
    0 <= i < |s| && s[i] == x && forall j :: 0 <= j < i ==> s[j].hash != hash
  }

  lemma FirstInLeftPart(node: Node, sl: seq<Node>, sr: seq<Node>, i: nat, x: Node, hash: string)
    requires node.hash != hash
    requires FirstWithHashAt(sl, i, x, hash)
    ensures FirstWithHashAt([node] + sl + sr, i + 1, x, hash)
  {
  }

  lemma FirstInRightPart(node: Node, sl: seq<Node>, sr: seq<Node>, i: nat, x: Node, hash: string)
    requires node.hash != hash
    requires forall m :: m in sl ==> m.hash != hash
    requires FirstWithHashAt(sr, i, x, hash)
    ensures FirstWithHashAt([node] + sl + sr, 1 + |sl| + i, x, hash)
  {
  }

  lemma SubtreesSplit(node: Node)
    requires node.Internal?
    ensures Subtrees(node) == [node] + Subtrees(node.left) + Subtrees(node.right)
  {
  }

  /** The node a found path ends at. */
  ghost function Target(node: Node, hash: string): Node
    requires PathSearch(node, hash).Some?
  {
    var p := PathSearch(node, hash).value;
    p[|p| - 1]
  }

  /** A path that continues through the left child ends where the child's path ends. */
  lemma TargetThroughLeft(node: Node, hash: string)
    requires node.Internal? && node.hash != hash
    requires PathSearch(node.left, hash).Some?
    ensures PathSearch(node, hash).Some?
    ensures Target(node, hash) == Target(node.left, hash)
  {
    var p := PathSearch(node.left, hash).value;
    assert PathSearch(node, hash).value == [node] + p;
    assert ([node] + p)[|p|] == p[|p| - 1];
  }

  /** A path that continues through the right child ends where the child's path ends. */
  lemma TargetThroughRight(node: Node, hash: string)
    requires node.Internal? && node.hash != hash
    requires PathSearch(node.left, hash).None? && PathSearch(node.right, hash).Some?
    ensures PathSearch(node, hash).Some?
    ensures Target(node, hash) == Target(node.right, hash)
  {
    var p := PathSearch(node.right, hash).value;
    assert PathSearch(node, hash).value == [node] + p;
    assert ([node] + p)[|p|] == p[|p| - 1];
  }

  lemma EndsInLeft(node: Node, hash: string, il: nat)
    requires node.Internal? && node.hash != hash
    requires PathSearch(node.left, hash).Some?
    requires FirstWithHashAt(Subtrees(node.left), il, Target(node.left, hash), hash)
    ensures PathSearch(node, hash).Some?
    ensures FirstWithHashAt(Subtrees(node), il + 1, Target(node, hash), hash)
  {
    TargetThroughLeft(node, hash);
    SubtreesSplit(node);
    FirstInLeftPart(node, Subtrees(node.left), Subtrees(node.right), il, Target(node.left, hash), hash);
  }

  lemma EndsInRight(node: Node, hash: string, ir: nat)
    requires node.Internal? && node.hash != hash
    requires PathSearch(node.left, hash).None? && PathSearch(node.right, hash).Some?
    requires FirstWithHashAt(Subtrees(node.right), ir, Target(node.right, hash), hash)
    ensures PathSearch(node, hash).Some?
    ensures FirstWithHashAt(Subtrees(node), 1 + |Subtrees(node.left)| + ir, Target(node, hash), hash)
  {
    TargetThroughRight(node, hash);
    SubtreesSplit(node);
    PathSearchFinds(node.left, hash);
    FirstInRightPart(node, Subtrees(node.left), Subtrees(node.right), ir, Target(node.right, hash), hash);
  }

  /** A start node with the digest is its own path's end, first in pre-order. */
  lemma EndsAtStart(node: Node, hash: string)
    requires node.hash == hash
    ensures PathSearch(node, hash).Some?
    ensures FirstWithHashAt(Subtrees(node), 0, Target(node, hash), hash)
  {
    assert Subtrees(node)[0] == node;
  }

  /** The search's position in pre-order: by induction over the search. */
  lemma {:induction false} SearchEndsAtFirstMatch(node: Node, hash: string) returns (i: nat)
    requires PathSearch(node, hash).Some?
    ensures FirstWithHashAt(Subtrees(node), i, Target(node, hash), hash)
  {
    if node.hash == hash {
      EndsAtStart(node, hash);
      i := 0;
    } else if PathSearch(node.left, hash).Some? {
      var il := SearchEndsAtFirstMatch(node.left, hash);
      EndsInLeft(node, hash, il);
      i := il + 1;
    } else {
      var ir := SearchEndsAtFirstMatch(node.right, hash);
      EndsInRight(node, hash, ir);
      i := 1 + |Subtrees(node.left)| + ir;
    }
  }

  /** The node a path ends at is the first node in pre-order with the digest;
      `i` is its pre-order position. */
  lemma PathEndsAtFirstMatch(node: Node, hash: string) returns (i: nat)
    requires PathToDescendant(node, hash).Some?
    ensures PathToDescendant(node, hash).value[|PathToDescendant(node, hash).value| - 1] == Target(node, hash)
    ensures FirstWithHashAt(Subtrees(node), i, Target(node, hash), hash)
  {
    i := SearchEndsAtFirstMatch(node, hash);
  }

  /** The step for `son` under `parent`: the sibling is looked up by comparing
      the left child's digest with the son's. */
  function SiblingEntry(parent: Node, son: Node): (e: ProofEntry)
    requires parent.Internal?
    requires son == parent.left || son == parent.right
    ensures e.siblingIsLeft ==> son == parent.right && e.sibling == parent.left.hash
    ensures !e.siblingIsLeft ==> e.sibling == parent.right.hash && son.hash == parent.left.hash
  {
    if parent.left.hash == son.hash then ProofEntry(parent.right.hash, false)
    else ProofEntry(parent.left.hash, true)
  }

  /** The entries for a path, from the step above its last node up to its first. */
  function ProofEntries(path: seq<Node>): (e: seq<ProofEntry>)
    requires |path| >= 1 && IsChain(path)
    ensures |e| == |path| - 1
    ensures forall j :: 0 <= j < |e| ==> e[j] == SiblingEntry(path[|path| - 2 - j], path[|path| - 1 - j])
    decreases |path|
  {
    if |path| == 1 then []
    else
      assert IsChain(path[1..]);
      ProofEntries(path[1..]) + [SiblingEntry(path[0], path[1])]
  }

  /** The proof for a path from the root: anchored to the root digest, one
      step fewer than the path has nodes. */
  function ProofFromPath(t: MerkleTree, path: seq<Node>): (pr: MerkleProof)
    requires |path| >= 1 && IsChain(path)
    ensures pr.rootHash == t.root.hash
    ensures pr.length == |pr.entries| == |path| - 1
  {
    MerkleProof(t.root.hash, |path| - 1, ProofEntries(path))
  }

  /** The proof for the first node carrying `hash`; fails when there is none. */
  function GetMerkleProofOfHash(t: MerkleTree, hash: string): (r: Result<MerkleProof>)
    ensures r.Err? <==> !HasNodeWithHash(t.root, hash)
    ensures r.Err? ==> r.error == IllegalArgument
    ensures r.Ok? ==> r.value.rootHash == t.root.hash && r.value.length == |r.value.entries|
  {
    match PathToDescendant(t.root, hash)
    case None => Err(IllegalArgument)
    case Some(path) => Ok(ProofFromPath(t, path))
  }

  /** The proof for a datum, located through its digest. */
  function GetMerkleProofOfData<T>(t: MerkleTree, dataHash: T -> string, data: T): (r: Result<MerkleProof>)
    ensures r.Err? <==> !HasNodeWithHash(t.root, dataHash(data))
    ensures r.Err? ==> r.error == IllegalArgument
    ensures r.Ok? ==> r.value.rootHash == t.root.hash && r.value.length == |r.value.entries|
  {
    GetMerkleProofOfHash(t, dataHash(data))
  }

  /** The proof for a branch, located through the branch's digest. */
  function GetMerkleProofOfBranch(t: MerkleTree, branch: Node): (r: Result<MerkleProof>)
    ensures r.Err? <==> !HasNodeWithHash(t.root, branch.hash)
    ensures r.Err? ==> r.error == IllegalArgument
    ensures r.Ok? ==> r.value.rootHash == t.root.hash && r.value.length == |r.value.entries|
  {
    GetMerkleProofOfHash(t, branch.hash)
  }

  /** Combines a running digest with one step: the sibling goes on the side the flag says. */
  function Combine(H: string -> string, current: string, e: ProofEntry): string {
    if e.siblingIsLeft then H(e.sibling + current) else H(current + e.sibling)
  }

  /** Folds the steps in order, starting from `start`. */
  function Fold(H: string -> string, start: string, entries: seq<ProofEntry>): string
    decreases |entries|
  {
    if |entries| == 0 then start else Fold(H, Combine(H, start, entries[0]), entries[1..])
  }

  lemma {:induction false} FoldAppend(H: string -> string, start: string, entries: seq<ProofEntry>, e: ProofEntry)
    ensures Fold(H, start, entries + [e]) == Combine(H, Fold(H, start, entries), e)
    decreases |entries|
  {
    if |entries| > 0 {
      assert (entries + [e])[1..] == entries[1..] + [e];
      FoldAppend(H, Combine(H, start, entries[0]), entries[1..], e);
    }
  }

  /** One step of a proof rebuilds the parent's digest from the son's,
      whichever child the son is and even when both children share a digest. */
  lemma StepRebuildsParent(parent: Node, son: Node, H: string -> string)
    requires parent.Internal? && Consistent(parent, H)
    requires son == parent.left || son == parent.right
    requires !(parent.left.hash == Padding && parent.right.hash == Padding)
    ensures Combine(H, son.hash, SiblingEntry(parent, son)) == parent.hash
  {
  }

  /** Folding the proof entries of a found path from the target digest
      recomputes the digest of the path's first node. */
  lemma {:induction false} PathFoldsToStart(n: Node, H: string -> string, hash: string)
    requires Consistent(n, H) && NeverPadding(H)
    requires PathToDescendant(n, hash).Some?
    ensures Fold(H, hash, ProofEntries(PathToDescendant(n, hash).value)) == n.hash
  {
    var p := PathToDescendant(n, hash).value;
    if n.hash != hash {
      var lp := PathToDescendant(n.left, hash);
      var child := if lp.Some? then n.left else n.right;
      var cp := PathToDescendant(child, hash).value;
      assert p == [n] + cp;
      assert p[1..] == cp;
      PathFoldsToStart(child, H, hash);
      assert ProofEntries(p) == ProofEntries(cp) + [SiblingEntry(n, child)];
      FoldAppend(H, hash, ProofEntries(cp), SiblingEntry(n, child));
      if n.left.hash == Padding && n.right.hash == Padding {
        PaddingPropagatesDown(child, H);
        assert false;
      }
      StepRebuildsParent(n, child, H);
    }
  }

  /** Round trip: a proof obtained for a digest folds, from that digest, to the
      root digest it is anchored to. */
  lemma ProofFoldsToRoot(t: MerkleTree, H: string -> string, hash: string)
    requires Consistent(t.root, H) && NeverPadding(H)
    requires GetMerkleProofOfHash(t, hash).Ok?
    ensures var pr := GetMerkleProofOfHash(t, hash).value;
            Fold(H, hash, pr.entries) == pr.rootHash == t.root.hash
  {
    PathFoldsToStart(t.root, H, hash);
  }

  /** A chain from the root of a perfect tree of height `k` that ends at a
      leaf has k + 1 nodes, so a proof for a leaf has exactly `k` steps. */
  lemma {:induction false} ChainToLeafLength(path: seq<Node>, k: nat)
    requires |path| >= 1 && IsChain(path)
    requires Perfect(path[0], k)
    requires path[|path| - 1].Leaf?
    ensures |path| == k + 1
    decreases |path|
  {
    if |path| > 1 {
      assert IsChain(path[1..]);
      ChainToLeafLength(path[1..], k - 1);
    }
  }

  /** The proof of a datum whose digest is first found at a leaf has as many
      steps as the tree is high. */
  lemma ProofLengthIsHeight<T>(t: MerkleTree, k: nat, dataHash: T -> string, data: T)
    requires Perfect(t.root, k)
    requires PathToDescendant(t.root, dataHash(data)).Some?
    requires var p := PathToDescendant(t.root, dataHash(data)).value; p[|p| - 1].Leaf?
    ensures GetMerkleProofOfData(t, dataHash, data).Ok?
    ensures GetMerkleProofOfData(t, dataHash, data).value.length == k
  {
    ChainToLeafLength(PathToDescendant(t.root, dataHash(data)).value, k);
  }
}

=== FILE: merkle_search.dfy ===
/**
  Leaf search, branch membership and data validation on a Merkle tree.

  Node equality is digest equality throughout: `checkBranchIntoThree`
  compares nodes with `equals`, and a branch is found when some node of the
  tree, the root and the leaves included, carries its root digest. The
  data digest primitive is the parameter `dataHash`.
*/
module MerkleSearch {
  import opened Wrappers
  import opened Sequences
  import opened MerkleNodes
  import opened MerkleBuild

  function Size(n: Node): nat {
    match n
    case Leaf(_) => 1
    case Internal(_, l, r) => 1 + Size(l) + Size(r)
  }

  function SizeOf(ns: seq<Node>): nat {
    if |ns| == 0 then 0 else Size(ns[0]) + SizeOf(ns[1..])
  }

  /** Popping the top of the stack splits both its leaves and its measure. */
  lemma {:induction false} PopTop(stack: seq<Node>)
    requires |stack| > 0
    ensures LeavesOf(stack) == Leaves(stack[0]) + LeavesOf(stack[1..])
    ensures SizeOf(stack) == Size(stack[0]) + SizeOf(stack[1..])
  {
  }

  /** Replacing an internal node on top of the stack by its two children. */
  lemma {:induction false} PushChildren(n: Node, rest: seq<Node>)
    requires n.Internal?
    ensures LeavesOf([n.left, n.right] + rest) == Leaves(n) + LeavesOf(rest)
    ensures SizeOf([n.left, n.right] + rest) < Size(n) + SizeOf(rest)
  {
  }

  /** The position of the first leaf under `node` whose digest is `hash`,
      counted from the leftmost leaf of `node`, or -1. An explicit stack
      (top at index 0) holds the subtrees still to visit; the left child is
      pushed last so it is visited first. */
  method SearchIntoNode(node: Node, hash: string) returns (index: int)
    ensures -1 <= index < |Leaves(node)|
    ensures index == -1 <==> hash !in Leaves(node)
    ensures 0 <= index ==> Leaves(node)[index] == hash && hash !in Leaves(node)[..index]
    ensures index == FirstIndex(Leaves(node), hash)
  {
    var stack := [node];
    index := 0;
    ghost var visited: seq<string> := [];
    PopTop(stack);
    while stack != []
      invariant visited + LeavesOf(stack) == Leaves(node)
      invariant index == |visited|
      invariant hash !in visited
      decreases SizeOf(stack)
    {
      PopTop(stack);
      var n := stack[0];
      var rest := stack[1..];
      if n.Leaf? {
        if n.hash == hash {
          assert Leaves(node)[..index] == visited;
          FirstIndexAt(Leaves(node), hash, index);
          return;
        }
        visited := visited + [n.hash];
        index := index + 1;
        stack := rest;
      } else {
        PushChildren(n, rest);
        stack := [n.left, n.right] + rest;
      }
    }
    index := -1;
  }

  /** Index of a datum in the whole tree, or -1. */
  method GetIndexOfData<T>(t: MerkleTree, dataHash: T -> string, data: T) returns (index: int)
    ensures index == FirstIndex(Leaves(t.root), dataHash(data))
    ensures index != -1 <==> ValidateData(t, dataHash, data)
  {
    index := SearchIntoNode(t.root, dataHash(data));
  }

  /** Some node under `tree` has the digest of `branch`. Visits a node, then
      its left subtree, then its right one. */
  function CheckBranchIntoTree(tree: Node, branch: Node): (r: bool)
    ensures r <==> HasNodeWithHash(tree, branch.hash)
  {
    if tree.hash == branch.hash then
      assert tree in Subtrees(tree);
      true
    else if tree.Leaf? then false
    else
      var l := CheckBranchIntoTree(tree.left, branch);
      var r := CheckBranchIntoTree(tree.right, branch);
      assert Subtrees(tree) == [tree] + Subtrees(tree.left) + Subtrees(tree.right);
      l || r
  }

  /** Index of a datum relative to the leftmost leaf of `branch`; fails when
      `branch` is not part of the tree. */
  method GetIndexOfDataInBranch<T>(t: MerkleTree, branch: Node, dataHash: T -> string, data: T)
    returns (r: Result<int>)
    ensures r.Err? <==> !HasNodeWithHash(t.root, branch.hash)
    ensures r.Err? ==> r.error == IllegalArgument
    ensures r.Ok? ==> r.value == FirstIndex(Leaves(branch), dataHash(data))
  {
    if !CheckBranchIntoTree(t.root, branch) {
      return Err(IllegalArgument);
    }
    var index := SearchIntoNode(branch, dataHash(data));
    return Ok(index);
  }

  /** The tree contains a node with the digest of `branch`. */
  function ValidateBranch(t: MerkleTree, branch: Node): (r: bool)
    ensures r <==> exists m :: m in Subtrees(t.root) && m.hash == branch.hash
  {
    CheckBranchIntoTree(t.root, branch)
  }

  /** Some leaf under `tree` carries `hash`. */
  function CheckHashIntoLeafs(tree: Node, hash: string): (r: bool)
    ensures r <==> hash in Leaves(tree)
  {
    if tree.Leaf? then tree.hash == hash
    else CheckHashIntoLeafs(tree.left, hash) || CheckHashIntoLeafs(tree.right, hash)
  }

  /** The digest of `data` is the digest of some leaf. */
  function ValidateData<T>(t: MerkleTree, dataHash: T -> string, data: T): (r: bool)
    ensures r <==> dataHash(data) in Leaves(t.root)
  {
    CheckHashIntoLeafs(t.root, dataHash(data))
  }

  /** In a constructed tree, the index of a non-padding digest is its position
      in the digest list the tree was built from: padding leaves come last. */
  lemma IndexInBuiltTree(t: MerkleTree, H: string -> string, hashes: seq<string>, h: string)
    requires BuiltFrom(t, H, hashes)
    requires h != Padding
    ensures FirstIndex(Leaves(t.root), h) == FirstIndex(hashes, h)
    ensures h in Leaves(t.root) <==> h in hashes
  {
    var m := Pow2(CeilLog2(|hashes|)) - |hashes|;
    assert h !in Pads(m);
    FirstIndexAppend(hashes, Pads(m), h);
  }
}

=== FILE: sequences.dfy ===
/** Small facts about sequences used by both the list and the tree. */
module Sequences {

  /** Position of the first occurrence of `x` in `s`, or -1 when `x` does not occur. */
  function FirstIndex<X(==)>(s: seq<X>, x: X): (r: int)
    ensures -1 <= r < |s|
    ensures r == -1 <==> x !in s
    ensures 0 <= r ==> s[r] == x && x !in s[..r]
  {
    if |s| == 0 then -1
    else if s[0] == x then 0
    else
      var k := FirstIndex(s[1..], x);
      assert s == [s[0]] + s[1..];
      if k == -1 then -1
      else
        assert s[..k + 1] == [s[0]] + s[1..][..k];
        k + 1
  }

  /** No element occurs twice. */
  predicate NoDuplicates<X(==)>(s: seq<X>) {
    forall i, j :: 0 <= i < j < |s| ==> s[i] != s[j]
  }

  /** In a duplicate-free sequence every element is its own first occurrence. */
  lemma FirstIndexOfDistinct<X>(s: seq<X>, p: int)
    requires NoDuplicates(s)
    requires 0 <= p < |s|
    ensures FirstIndex(s, s[p]) == p
  {
  }

  /** An occurrence with no earlier occurrence is the first one. */
  lemma FirstIndexAt<X>(s: seq<X>, x: X, i: int)
    requires 0 <= i < |s| && s[i] == x && x !in s[..i]
    ensures FirstIndex(s, x) == i
  {
  }

  /** Appending elements other than `x` leaves the first occurrence of `x` unchanged. */
  lemma FirstIndexAppend<X>(a: seq<X>, b: seq<X>, x: X)
    requires x !in b
    ensures FirstIndex(a + b, x) == FirstIndex(a, x)
  {
    var r := FirstIndex(a, x);
    if r >= 0 {
      assert (a + b)[..r] == a[..r];
      FirstIndexAt(a + b, x, r);
    } else {
      assert x !in a + b;
    }
  }

  /** A slice holding `a + b` is a slice holding `a` followed by a slice holding `b`. */
  lemma SliceSplit<X>(s: seq<X>, o: nat, a: seq<X>, b: seq<X>)
    requires o + |a| + |b| <= |s|
    requires s[o..o + |a| + |b|] == a + b
    ensures s[o..o + |a|] == a
    ensures s[o + |a|..o + |a| + |b|] == b
  {
    forall i | 0 <= i < |a|
      ensures s[o + i] == a[i]
    {
      assert s[o..o + |a| + |b|][i] == (a + b)[i];
    }
    forall i | 0 <= i < |b|
      ensures s[o + |a| + i] == b[i]
    {
      assert s[o..o + |a| + |b|][|a| + i] == (a + b)[|a| + i];
    }
  }
}

=== FILE: wrappers.dfy ===
/** Failure-carrying values shared by the list and the tree model. */
module Wrappers {

  /** A value that may be missing; stands for a Java reference that may be null. */
  datatype Option<T> = None | Some(value: T)

  /** The exceptions the modelled code raises on purpose. */
  datatype Error =
    | IllegalArgument         // IllegalArgumentException
    | ConcurrentModification  // ConcurrentModificationException

  /** Either a normal result or the exception the operation throws. */
  datatype Result<T> = Ok(value: T) | Err(error: Error)
}
